=== FILE: README.md ===
# Feed tuning and client state of a social app, in Dafny

This project models the self-contained logic of a social-network client:

- **The feed tuner** (`src/lib/api/feed-manip.ts`). A newest-first page of feed items becomes
  display *slices* in stages. Self-reply chains are gathered into thread slices. Slices whose
  URI an earlier page already returned are dropped. A lone reply gets its parent put in front
  of it. Slices are sorted newest first. The caller's passes (`dedupReposts`,
  `likedRepliesOnly`) run in order. Finally every returned post URI is added to the tuner's
  seen set. Module `FeedManip` defines each stage as a pure function with its contract.
  Module `FeedManipLoops` writes the source's loops as methods (reverse scans, in-place
  splices, nested passes) and proves each equal to the stage it implements.
- **String helpers** (`src/view/lib/strings.ts`): `pluralize`, the age buckets of `ago`, and
  the mention scan of `extractEntities` (module `Strings`).
- **Editor JSON walks** (`src/view/com/composer/text-input/TextInput.web.tsx`): the plain
  text and the link targets of the composer's document tree (module `EditorJson`).
- **Shell UI state** (`src/state/models/shell-ui.ts`): switches, the modal stack, lightbox,
  composer and the persisted `darkMode` (module `ShellUi`).
- **List pagination** (`src/state/models/content/list.ts`): loading flags, error slots,
  cursor and accumulated items of a list's members (module `ListModel`).

Shared modules: `Optional` (an `Option` type and JavaScript truthiness of optional strings),
`Seqs` (filtering, first-match search, subsequences) and `StringOrder` (lexicographic string
order, used to compare ISO-8601 timestamps).

JavaScript truthiness is written out where the source relies on it. An empty self-reply
URI, repost time, plural form, link href or page cursor counts as absent.

## Model

| member | source | states |
|---|---|---|
| FeedManip.SelfReplyUri | src/lib/api/feed-manip.ts:182-186 | yields the parent's URI exactly when the item replies to a post by its own author, and nothing otherwise |
| FeedManip.SliceAccessors | src/lib/api/feed-manip.ts:12-48 | `uri` and `rootItem` pick the second item of a two-item non-thread slice and the first otherwise; a slice always contains its own `uri`; a thread is never a reply and a one-item slice is neither; `ts` is the repost time when set, else the post time |
| FeedManip.Insert | src/lib/api/feed-manip.ts:50-58 | the slice grows by exactly the new item: one more item, and the items as a multiset are the old ones plus it |
| FeedManip.InsertPlacement | src/lib/api/feed-manip.ts:50-58 | the item lands right after the first item it self-replies to, or at the end when there is none; the items before and after keep their order |
| FeedManip.FlattenReplyParent | src/lib/api/feed-manip.ts:60-64 | a slice whose first item has a reply parent gains that parent in front as an item with no reply and no reason; any other slice is unchanged |
| FeedManip.AddToThreads | src/lib/api/feed-manip.ts:101-109 | one assembly step either joins an existing slice (count unchanged) or opens a new one-item slice in front, and it opens one exactly when the item is no self-reply or no slice holds its parent |
| FeedManip.Assemble | src/lib/api/feed-manip.ts:95-110 | thread assembly yields no more slices than items, at least one slice for a non-empty page, and never an empty slice |
| FeedManip.AssembleConserves | src/lib/api/feed-manip.ts:98-110 | every input item lands in exactly one slice: the multiset of all slice items equals the page |
| FeedManip.AssembleWithoutSelfReplies | src/lib/api/feed-manip.ts:98-110 | a page without self-replies becomes one single-item slice per item, in page order |
| FeedManip.AddToThreadsJoins | src/lib/api/feed-manip.ts:100-106 | a self-reply whose parent a slice already holds is inserted into the first such slice and the others are untouched |
| FeedManip.SelfReplyJoinsParent | src/lib/api/feed-manip.ts:98-110 | a self-reply listed before its parent is gathered with it into one thread slice, parent first |
| FeedManip.DropSeen | src/lib/api/feed-manip.ts:112-117 | what remains is a subsequence of the slices, holds no slice whose `uri` is seen, keeps every slice whose `uri` is unseen, and is shorter than the input by exactly the number of seen slices |
| FeedManip.Contextualize | src/lib/api/feed-manip.ts:119-129 | a non-thread, non-repost slice whose first item has an unseen reply parent is flattened (one item longer); every other slice is unchanged |
| FeedManip.ContextualizeAll | src/lib/api/feed-manip.ts:119-129 | contextualisation treats each slice on its own and keeps the number of slices |
| FeedManip.ContextualizeKeepsUnseen | src/lib/api/feed-manip.ts:112-129 | a slice whose `uri` was unseen before contextualisation still has an unseen `uri` after it |
| FeedManip.ContextBoundary | src/lib/api/feed-manip.ts:119-129 | a lone reply whose parent is seen stays one item; with an unseen parent it becomes a two-item slice with the parent first |
| FeedManip.SortByTs | src/lib/api/feed-manip.ts:131-132 | the result is a permutation of the slices ordered newest first by `ts` |
| FeedManip.InsertByTs | src/lib/api/feed-manip.ts:131-132 | inserting into a newest-first sequence keeps it newest first and adds exactly the one slice |
| FeedManip.SubseqStaysSorted | src/lib/api/feed-manip.ts:131-137 | removing slices, as the passes do, keeps the newest-first order |
| FeedManip.DedupReposts | src/lib/api/feed-manip.ts:149-165 | the result is a subsequence of the input, keeps every thread slice and every slice that is first to show its lead post, each at a position preceded only by slices from before it (so of equal slices the first copy is the one kept), removes a slice only when it is not a thread and an earlier remaining slice holds its lead post, and no non-thread slice leads with a post an earlier remaining slice holds |
| FeedManip.DedupDropsRepostOfShown | src/lib/api/feed-manip.ts:149-165 | a repost of a post an earlier slice shows is removed and the earlier slice stays |
| FeedManip.LikedRepliesOnly | src/lib/api/feed-manip.ts:167-179 | the result is a subsequence that drops exactly the non-thread slices whose root is a non-repost reply with zero likes, so every thread slice survives |
| FeedManip.LikedRepliesOnlyLoneReply | src/lib/api/feed-manip.ts:167-179 | a lone reply is removed exactly when it is not a repost and its like count is zero |
| FeedManip.ApplyFns | src/lib/api/feed-manip.ts:134-137 | running the passes in order yields a subsequence that keeps every thread slice; if de-duplication ran, no repost duplicate remains, and if the liked-replies pass ran, no unliked reply remains, whatever passes follow |
| FeedManip.SubseqNoRepostDuplicates | src/lib/api/feed-manip.ts:149-165 | deleting slices from a list without repost duplicates cannot create one |
| FeedManip.Reset | src/lib/api/feed-manip.ts:87-89 | the seen set becomes empty |
| FeedManip.Prepare | src/lib/api/feed-manip.ts:97-132 | before the passes, the slices are newest first, none has a `uri` the tuner had seen, and they are a reordering of the contextualised unseen threads of the page |
| FeedManip.Tune | src/lib/api/feed-manip.ts:91-147 | the returned slices are newest first, none has a previously seen `uri`, they are a subsequence of the prepared slices, the seen set becomes the old set plus every returned post URI, every thread slice of the prepared page is kept, each pass that ran leaves its guarantee (no repost duplicates, no unliked replies), and without passes the slices are exactly the contextualised unseen threads |
| FeedManip.SeenGrows | src/lib/api/feed-manip.ts:139-144 | the seen set only grows, and every returned post is in it afterwards |
| FeedManip.NextPageSkipsShown | src/lib/api/feed-manip.ts:112-144 | a later page never returns a slice whose `uri` is a post an earlier page returned |
| FeedManip.ResetForgets | src/lib/api/feed-manip.ts:87-117 | after `reset`, no slice of the next page is dropped as seen |
| FeedManipLoops.AssembleThreads | src/lib/api/feed-manip.ts:95-110 | the reverse scan with `find`, `insert` and `unshift` computes `Assemble` |
| FeedManipLoops.RemoveBackwards | src/lib/api/feed-manip.ts:113-117 | a backward scan splicing out rejected slices leaves exactly the filtered sequence |
| FeedManipLoops.DropSeenInPlace | src/lib/api/feed-manip.ts:113-117 | the seen-filter loop computes `DropSeen` |
| FeedManipLoops.ContextualizeInPlace | src/lib/api/feed-manip.ts:120-129 | the contextualisation loop computes `ContextualizeAll` |
| FeedManipLoops.DropShownBy | src/lib/api/feed-manip.ts:153-163 | the inner dedup loop, splicing with `j--`, removes exactly the later non-thread slices whose lead post slice `i` holds |
| FeedManipLoops.DedupRepostsInPlace | src/lib/api/feed-manip.ts:149-165 | the nested in-place loops compute `DedupReposts` |
| FeedManipLoops.LikedRepliesOnlyInPlace | src/lib/api/feed-manip.ts:167-179 | the backward splice loop computes `LikedRepliesOnly` |
| FeedManipLoops.CommitSeen | src/lib/api/feed-manip.ts:139-144 | the nested commit loops add exactly the post URIs of every slice to the seen set |
| FeedManipLoops.Tune | src/lib/api/feed-manip.ts:91-147 | `tune` run stage by stage as written returns the same slices and seen set as `FeedManip.Tune` |
| Strings.Pluralize | src/view/lib/strings.ts:6-14 | one gives the base; any other count gives a non-empty plural, or the base plus "s" when the plural is absent or empty |
| Strings.AgoBucket | src/view/lib/strings.ts:42-57 | zero is "just now"; each bucket holds exactly the ages between its strict thresholds 60, 3600, 86400, 30 days and 365 days; minutes lie in 1..59, hours in 1..23, days in 1..29, months in 1..12, and each count is the whole number of its unit in the age |
| Strings.Ago | src/view/lib/strings.ts:42-57 | an age of zero reads "just now", an age of a year or more shows the locale date, and any other age ends in its bucket's unit suffix after a non-empty number |
| Strings.AgoReadsBack | src/view/lib/strings.ts:45-54 | below a year the label is a decimal numeral followed by its unit suffix, and the numeral reads back as the bucket's count, negative seconds included |
| Strings.MatchLengthsFit | src/view/lib/strings.ts:63 | at each position the pattern either fails or matches "@" and a handle that fits in the text, and no match starts inside another match's handle |
| Strings.Scan | src/view/lib/strings.ts:64-73 | the global scan from a position yields mentions at match positions only, each covering "@" and its handle, in order and without overlap |
| Strings.ScanFindsEveryMatch | src/view/lib/strings.ts:64-73 | the global scan from a position skips no match at or after that position: each one starts an entity |
| Strings.ScanMentions | src/view/lib/strings.ts:63-73 | each entity is a mention whose range covers "@" followed by its value in the text, and the entities are in order without overlap |
| Strings.ScanFindsEveryMention | src/view/lib/strings.ts:63-73 | every position where the mention pattern matches is the start of an entity of the whole-text scan |
| Strings.ExtractEntities | src/view/lib/strings.ts:60-75 | a returned list is non-empty, each entity a mention whose range covers "@" and its value, in order without overlap |
| Strings.ExtractEntitiesNoneIff | src/view/lib/strings.ts:74 | nothing is returned exactly when the pattern matches nowhere in the text |
| EditorJson.LeafText | src/view/com/composer/text-input/TextInput.web.tsx:102-106 | a text node yields its text or ""; a mention yields "@" and its id, or "@" alone; any other node yields "" |
| EditorJson.EditorJsonToText | src/view/com/composer/text-input/TextInput.web.tsx:93-108 | the loop appending each child's text and then one line break computes `ToText` |
| EditorJson.OtherNodeIgnoresChildren | src/view/com/composer/text-input/TextInput.web.tsx:93-108 | the text of a node that is not a document or paragraph does not depend on its children |
| EditorJson.ChildrenTextAppend | src/view/com/composer/text-input/TextInput.web.tsx:96-100 | the children's text is the concatenation of their texts: splitting the children splits the text |
| EditorJson.ParagraphOfTexts | src/view/com/composer/text-input/TextInput.web.tsx:95-101 | a block of two text nodes yields both texts in order and then exactly one line break |
| EditorJson.NewlinesCountBlocks | src/view/com/composer/text-input/TextInput.web.tsx:95-101 | when no leaf holds a line break, the text holds exactly one line break per rendered document or paragraph |
| EditorJson.OwnLink | src/view/com/composer/text-input/TextInput.web.tsx:118-121 | a node's own link is the href of its first `link` mark when that href is a non-empty string, and nothing otherwise (also when it has no `link` mark) |
| EditorJson.Links | src/view/com/composer/text-input/TextInput.web.tsx:110-124 | a node's own link, when present, comes last, after its children's links |
| EditorJson.EditorJsonToLinks | src/view/com/composer/text-input/TextInput.web.tsx:110-124 | the loop concatenating the children's links and then pushing the own link computes `Links` |
| EditorJson.LinksAtMostNodes | src/view/com/composer/text-input/TextInput.web.tsx:118-121 | there are at most as many links as nodes in the tree |
| EditorJson.LinksAreOwnLinks | src/view/com/composer/text-input/TextInput.web.tsx:110-124 | a string is among the links exactly when it is the own link of some node of the tree |
| ShellUi.Initial | src/state/models/shell-ui.ts:91-100 | a fresh model has every switch off, no modal, no lightbox and no composer, and its flags agree with its state |
| ShellUi.SetDarkMode | src/state/models/shell-ui.ts:124-126 | sets `darkMode` and changes nothing else |
| ShellUi.SetMinimalShellMode | src/state/models/shell-ui.ts:128-130 | sets `minimalShellMode` and changes nothing else |
| ShellUi.SetMainMenuOpen | src/state/models/shell-ui.ts:132-134 | sets `isMainMenuOpen` and changes nothing else |
| ShellUi.OpenModal | src/state/models/shell-ui.ts:136-140 | pushes the modal on top of the unchanged stack, marks a modal active, emits one navigation, and changes nothing else |
| ShellUi.CloseModal | src/state/models/shell-ui.ts:142-145 | removes only the top modal (nothing on an empty stack), and `isModalActive` then says whether a modal remains |
| ShellUi.CloseUndoesOpenModal | src/state/models/shell-ui.ts:136-145 | closing right after opening restores the state apart from the emitted navigation |
| ShellUi.CloseAfterOpens | src/state/models/shell-ui.ts:136-145 | opening several modals stacks them in order, and closing as many times restores the stack |
| ShellUi.OpenLightbox | src/state/models/shell-ui.ts:147-151 | sets both the lightbox flag and the lightbox, emits one navigation, and changes nothing else |
| ShellUi.CloseLightbox | src/state/models/shell-ui.ts:153-156 | clears both the lightbox flag and the lightbox and changes nothing else |
| ShellUi.SetIndex | src/state/models/shell-ui.ts:70-72 | an images lightbox moves to the given index over the same images |
| ShellUi.OpenComposer | src/state/models/shell-ui.ts:158-162 | sets both the composer flag and its options, emits one navigation, and changes nothing else |
| ShellUi.CloseComposer | src/state/models/shell-ui.ts:164-167 | clears both the composer flag and its options and changes nothing else |
| ShellUi.CloseUndoesOpen | src/state/models/shell-ui.ts:147-167 | closing a lightbox or composer right after opening it restores a state that had it closed |
| ShellUi.Serialize | src/state/models/shell-ui.ts:110-114 | the persisted object has the single key `darkMode`, holding the current setting |
| ShellUi.Hydrate | src/state/models/shell-ui.ts:116-122 | only `darkMode` can change, and it changes only to the boolean `darkMode` of an object; an object with a boolean `darkMode` always sets it |
| ShellUi.HydrateSerialize | src/state/models/shell-ui.ts:110-122 | hydrating from a serialized state restores its `darkMode` and nothing else |
| ShellUi.HydrateIdempotent | src/state/models/shell-ui.ts:116-122 | hydrating twice from one value equals hydrating once |
| ShellUi.Step | src/state/models/shell-ui.ts:124-167 | every action keeps the modal, lightbox and composer flags in step with their state |
| ShellUi.RunStaysConsistent | src/state/models/shell-ui.ts:95-167 | any run of actions from a consistent state stays consistent and emits one navigation per opening action |
| ShellUi.ReachableIsConsistent | src/state/models/shell-ui.ts:92-167 | from a fresh model, every reachable state has `isModalActive` exactly when modals are stacked, and likewise for the lightbox and the composer |
| ListModel.Initial | src/state/models/content/list.ts:17-28 | a new model holds no items and no list, has no errors, has not loaded, and expects more |
| ListModel.InitialGetters | src/state/models/content/list.ts:73-87 | a new model has no content, is not empty (it has not loaded), has no error and no owner |
| ListModel.RefreshGetters | src/state/models/content/list.ts:73-116 | after a successful refresh, `isEmpty` holds exactly when the page had no items, `hasContent` exactly when it had some, `hasError` is false, and `isOwner` holds exactly for the fetched list's creator |
| ListModel.FailedLoadGetters | src/state/models/content/list.ts:73-116 | after a failed load, `hasError` holds exactly for a refresh with a non-empty message, and content, emptiness and ownership follow what was held before |
| ListModel.AppendGetters | src/state/models/content/list.ts:73-116 | a successful appending load clears `hasError`, has content exactly when there was some or the page brought some, and never empties a model that had content |
| ListModel.Keyed | src/state/models/content/list.ts:253-255 | storing keeps every item and its order and keys each by its subject |
| ListModel.AppendAll | src/state/models/content/list.ts:249-256 | items become the held items followed by the page's, the cursor and list are the page's, `hasMore` holds exactly for a non-empty cursor, and nothing else changes |
| ListModel.ReplaceAll | src/state/models/content/list.ts:244-247 | items become exactly the page's, and the state differs from appending only in the dropped earlier items |
| ListModel.XLoading | src/state/models/content/list.ts:221-225 | marks loading, records whether it refreshes, clears the error, and changes nothing else |
| ListModel.XIdle | src/state/models/content/list.ts:227-239 | clears both loading flags, marks the list loaded, puts each error's message (or "") in its slot, and changes nothing else |
| ListModel.PageRequest | src/state/models/content/list.ts:102-106 | the request names this list and asks for `PAGE_SIZE` (30) items; a replacing load asks from the start, an appending load from the stored cursor |
| ListModel.Begin | src/state/models/content/list.ts:96-100 | a skipped load changes nothing; otherwise the request starts with the loading flags set and the error cleared, and every other field is unchanged |
| ListModel.LoadMore | src/state/models/content/list.ts:96-116 | the list URI never changes; an appending load with nothing more returns at once; otherwise the load ends idle and loaded, a page replaces or extends the items and clears both errors, and a failure keeps the items and fills exactly the error slot of its kind |
| ListModel.RequestFollowsCursor | src/state/models/content/list.ts:96-110 | the request reads the same list and cursor once loading has begun, and after a page that carries a cursor the next appending load runs and asks from that cursor |
| ListModel.Refresh | src/state/models/content/list.ts:92-94 | a refresh replaces the items with the page, or keeps them and reports the error |
| ListModel.RetryLoadMore | src/state/models/content/list.ts:212-216 | a retry always loads: a page is appended, a failure lands in the load-more error slot |
| ListModel.NeverBothErrors | src/state/models/content/list.ts:113-115 | a load never leaves both error slots filled |
| ListModel.LastPageStops | src/state/models/content/list.ts:96-99 | after a page without a cursor, further appending loads change nothing |
| ListModel.PagesAccumulate | src/state/models/content/list.ts:96-116 | a refresh followed by appending loads of pages with cursors holds every page's items in order, each keyed by its subject, with the last page's cursor and list |

## Left out

- `logSelf` and the tuner's logging: console output only.
- Caller-supplied tuner functions: the passes are the two the source defines, named by the datatype `TunerFn`.
- `localeCompare`: timestamps are compared by plain character order, and the sort's stability is not modelled; `SortByTs` is an insertion sort standing for the engine's sort.
- FeedManip.Tune: with passes, its contract states the order, the unseen `uri`s, the seen-set update, that the result is a subsequence of the prepared slices keeping every thread slice, and that each pass that ran left its guarantee; it does not list which non-thread slices a pass removed from an intermediate result, which the contracts of `DedupReposts` and `LikedRepliesOnly` state pass by pass.
- `Date.now`, date parsing and `toLocaleDateString` in `ago`: the age arrives as whole seconds (the caller's `Math.floor`), and the date shown after a year is a parameter.
- `makeRecordUri`: it builds a URI through a third-party class.
- Strings.ExtractEntities: text is a sequence of Unicode scalar values, not UTF-16 code units, so indices past a non-BMP character differ from JavaScript's.
- `cleanError` and `rootStore.log`: an error arrives as its message, already cleaned; logging is left out.
- `bundleAsync` and concurrency: one load is modelled as a whole, from request to answer; overlapping loads are not.
- MobX observability: states are values.
- `emitNavigation`: its effects are out of scope; the shell counts the calls in `navigations`.
- The network methods of `ListModel` (`createModList`, `updateMetadata`, `delete`, `subscribe`, `unsubscribe`): remote calls around field copying.
- Modal callbacks, view models and JSX confirm messages: a modal keeps only its data fields, and a confirm message is plain text.
- Composer options' `onPost` callback and the reply author's display name and avatar: not state the shell inspects.
- ShellUi.Hydrate: arrays and other non-object values never carry a `darkMode` property in the model, as `hasProp` sees it for the values persistence produces.
- ListModel.Keyed: the source keys each item by its `subject` object; the model uses the subject's DID.
- Strings.Pluralize: the count is an integer; a fractional count behaves like any count other than one.

=== FILE: editor_json.dfy ===
/** The two tree walks of the web composer (src/view/com/composer/text-input/TextInput.web.tsx):
    `editorJsonToText` renders the editor's document tree as plain text and
    `editorJsonToLinks` collects the link marks' targets. */
module EditorJson {
  import opened Optional
  import opened Seqs

  /** A mark on a node; only `link` marks and their `href` attribute matter here. */
  datatype Mark = Mark(kind: string, href: Option<string>)

  /** An editor JSON node. A missing `content` array is the empty sequence, and `id` is the
      node's `attrs.id` (present on mentions). */
  datatype Node = Node(kind: string, text: Option<string>, id: Option<string>, content: seq<Node>, marks: seq<Mark>)

  /** Documents and paragraphs: the nodes that render their children and end with a line break. */
  predicate IsBlock(n: Node) {
    n.kind == "doc" || n.kind == "paragraph"
  }

  /** What a non-block node contributes: a text node its text, a mention "@" and its id,
      anything else nothing. */
  function LeafText(n: Node): (r: string)
    ensures n.kind == "text" ==> r == n.text.GetOr("")
    ensures n.kind == "mention" ==> r == "@" + n.id.GetOr("")
    ensures n.kind != "text" && n.kind != "mention" ==> r == ""
  {
    if n.kind == "text" then (if Truthy(n.text) then n.text.value else "")
    else if n.kind == "mention" then "@" + (if Truthy(n.id) then n.id.value else "")
    else ""
  }

  /** `editorJsonToText`. */
  function ToText(n: Node): (r: string)
    ensures IsBlock(n) ==> |r| > 0 && r[|r| - 1] == '\n'
    decreases n, 1
  {
    if IsBlock(n) then ChildrenText(n.content) + "\n" else LeafText(n)
  }

  /** The children's texts, concatenated in order. */
  function ChildrenText(ns: seq<Node>): string
    decreases ns, 0
  {
    if |ns| == 0 then "" else ChildrenText(ns[..|ns| - 1]) + ToText(ns[|ns| - 1])
  }

  /** `editorJsonToText` as written: a loop appending each child's text, then the line break. */
  method EditorJsonToText(json: Node) returns (text: string)
    ensures text == ToText(json)
    decreases json
  {
    text := "";
    if IsBlock(json) {
      var i := 0;
      while i < |json.content|
        invariant 0 <= i <= |json.content|
        invariant text == ChildrenText(json.content[..i])
      {
        var part := EditorJsonToText(json.content[i]);
        assert json.content[..i + 1][..i] == json.content[..i];
        text := text + part;
        i := i + 1;
      }
      assert json.content[..i] == json.content;
      text := text + "\n";
    } else if json.kind == "text" {
      text := text + (if Truthy(json.text) then json.text.value else "");
    } else if json.kind == "mention" {
      text := text + "@" + (if Truthy(json.id) then json.id.value else "");
    }
  }

  /** Children of a node that is neither a document nor a paragraph never reach the text. */
  lemma OtherNodeIgnoresChildren(n: Node, children: seq<Node>)
    requires !IsBlock(n)
    ensures ToText(n) == ToText(n.(content := children))
    ensures n.kind != "text" && n.kind != "mention" ==> ToText(n) == ""
  {
  }

  /** Rendering children is a concatenation: splitting them anywhere splits the text there. */
  lemma {:induction false} ChildrenTextAppend(a: seq<Node>, b: seq<Node>)
    ensures ChildrenText(a + b) == ChildrenText(a) + ChildrenText(b)
    decreases |b|
  {
    if |b| == 0 {
      assert a + b == a;
    } else {
      var init := b[..|b| - 1];
      assert (a + b)[..|a + b| - 1] == a + init;
      assert (a + b)[|a + b| - 1] == b[|b| - 1];
      ChildrenTextAppend(a, init);
    }
  }

  /** A paragraph of one text node per line renders those lines in order, then one line break. */
  lemma ParagraphOfTexts(n: Node, first: string, second: string)
    requires IsBlock(n) && |n.content| == 2
    requires n.content[0].kind == "text" && n.content[0].text == Some(first)
    requires n.content[1].kind == "text" && n.content[1].text == Some(second)
    ensures ToText(n) == first + second + "\n"
  {
    var ns := n.content;
    assert ns[..1][..0] == [] && ns[..1][0] == ns[0];
    assert ChildrenText(ns[..1]) == first;
    assert ChildrenText(ns) == ChildrenText(ns[..1]) + second;
  }

  // ---------------------------------------------------------------------------
  // Line structure of the rendered text
  // ---------------------------------------------------------------------------

  function CountNewlines(s: string): nat
    decreases |s|
  {
    if |s| == 0 then 0 else CountNewlines(s[..|s| - 1]) + (if s[|s| - 1] == '\n' then 1 else 0)
  }

  lemma {:induction false} CountNewlinesAppend(a: string, b: string)
    ensures CountNewlines(a + b) == CountNewlines(a) + CountNewlines(b)
    decreases |b|
  {
    if |b| == 0 {
      assert a + b == a;
    } else {
      CountNewlinesAppend(a, b[..|b| - 1]);
      assert (a + b)[..|a + b| - 1] == a + b[..|b| - 1];
    }
  }

  /** The number of documents and paragraphs whose line breaks reach the text: a block and the
      blocks among its children, recursively (children of other nodes are never rendered). */
  function Blocks(n: Node): nat
    decreases n, 1
  {
    if IsBlock(n) then 1 + BlocksAll(n.content) else 0
  }

  function BlocksAll(ns: seq<Node>): nat
    decreases ns, 0
  {
    if |ns| == 0 then 0 else BlocksAll(ns[..|ns| - 1]) + Blocks(ns[|ns| - 1])
  }

  /** No text and no mention id anywhere in the tree holds a line break. */
  predicate FlatLeaves(n: Node)
    decreases n
  {
    && (n.text.Some? ==> CountNewlines(n.text.value) == 0)
    && (n.id.Some? ==> CountNewlines(n.id.value) == 0)
    && forall i :: 0 <= i < |n.content| ==> FlatLeaves(n.content[i])
  }

  lemma LeafTextFlat(n: Node)
    requires FlatLeaves(n)
    ensures CountNewlines(LeafText(n)) == 0
  {
    if n.kind == "mention" && Truthy(n.id) {
      CountNewlinesAppend("@", n.id.value);
    }
  }

  /** With line-free leaves, the text has exactly one line break per rendered block. */
  lemma {:induction false} NewlinesCountBlocks(n: Node)
    requires FlatLeaves(n)
    ensures CountNewlines(ToText(n)) == Blocks(n)
    decreases n, 1
  {
    if IsBlock(n) {
      ChildrenNewlines(n.content);
      CountNewlinesAppend(ChildrenText(n.content), "\n");
    } else {
      LeafTextFlat(n);
    }
  }

  lemma {:induction false} ChildrenNewlines(ns: seq<Node>)
    requires forall i :: 0 <= i < |ns| ==> FlatLeaves(ns[i])
    ensures CountNewlines(ChildrenText(ns)) == BlocksAll(ns)
    decreases ns, 0
  {
    if |ns| > 0 {
      var init := ns[..|ns| - 1];
      assert forall i :: 0 <= i < |init| ==> init[i] == ns[i];
      ChildrenNewlines(init);
      NewlinesCountBlocks(ns[|ns| - 1]);
      CountNewlinesAppend(ChildrenText(init), ToText(ns[|ns| - 1]));
    }
  }

  // ---------------------------------------------------------------------------
  // editorJsonToLinks
  // ---------------------------------------------------------------------------

  predicate IsLinkMark(m: Mark) {
    m.kind == "link"
  }

  /** The node's own link: the first `link` mark's href, when that is a non-empty string. */
  function OwnLink(n: Node): (r: Option<string>)
    ensures r.Some? ==> r.value != ""
    ensures r.Some? ==> exists k :: 0 <= k < |n.marks| && IsLinkMark(n.marks[k]) && n.marks[k].href == r
    ensures (forall k :: 0 <= k < |n.marks| ==> !IsLinkMark(n.marks[k])) ==> r.None?
    ensures forall k :: 0 <= k < |n.marks| && IsLinkMark(n.marks[k]) &&
                        (forall j :: 0 <= j < k ==> !IsLinkMark(n.marks[j])) ==>
              r == (if Truthy(n.marks[k].href) then n.marks[k].href else None)
  {
    assert forall k :: 0 <= k < |n.marks| && IsLinkMark(n.marks[k]) &&
                       (forall j :: 0 <= j < k ==> !IsLinkMark(n.marks[j])) ==>
             FirstIndex(n.marks, IsLinkMark) == Some(k) by {
      forall k | 0 <= k < |n.marks| && IsLinkMark(n.marks[k]) && (forall j :: 0 <= j < k ==> !IsLinkMark(n.marks[j]))
        ensures FirstIndex(n.marks, IsLinkMark) == Some(k)
      {
        FirstIndexIs(n.marks, IsLinkMark, k);
      }
    }
    match FirstIndex(n.marks, IsLinkMark)
    case None => None
    case Some(k) => if Truthy(n.marks[k].href) then n.marks[k].href else None
  }

  /** `editorJsonToLinks`: the children's links in order, then the node's own. */
  function Links(n: Node): (r: seq<string>)
    ensures OwnLink(n).Some? ==> |r| > 0 && r[|r| - 1] == OwnLink(n).value
    decreases n, 1
  {
    ChildrenLinks(n.content) + (if OwnLink(n).Some? then [OwnLink(n).value] else [])
  }

  function ChildrenLinks(ns: seq<Node>): seq<string>
    decreases ns, 0
  {
    if |ns| == 0 then [] else ChildrenLinks(ns[..|ns| - 1]) + Links(ns[|ns| - 1])
  }

  /** `editorJsonToLinks` as written: concatenating each child's links, then pushing the own link. */
  method EditorJsonToLinks(json: Node) returns (links: seq<string>)
    ensures links == Links(json)
    decreases json
  {
    links := [];
    var i := 0;
    while i < |json.content|
      invariant 0 <= i <= |json.content|
      invariant links == ChildrenLinks(json.content[..i])
    {
      var part := EditorJsonToLinks(json.content[i]);
      assert json.content[..i + 1][..i] == json.content[..i];
      links := links + part;
      i := i + 1;
    }
    assert json.content[..i] == json.content;
    var link := FirstIndex(json.marks, IsLinkMark);
    if link.Some? && Truthy(json.marks[link.value].href) {
      links := links + [json.marks[link.value].href.value];
    }
  }

  /** `m` is `n` or lies somewhere below it. */
  predicate Within(m: Node, n: Node)
    decreases n
  {
    m == n || exists i :: 0 <= i < |n.content| && Within(m, n.content[i])
  }

  /** Nodes in the tree. */
  function Size(n: Node): nat
    decreases n, 1
  {
    1 + SizeAll(n.content)
  }

  function SizeAll(ns: seq<Node>): nat
    decreases ns, 0
  {
    if |ns| == 0 then 0 else SizeAll(ns[..|ns| - 1]) + Size(ns[|ns| - 1])
  }

  /** At most one link per node of the tree. */
  lemma {:induction false} LinksAtMostNodes(n: Node)
    ensures |Links(n)| <= Size(n)
    decreases n, 1
  {
    ChildrenLinksAtMostNodes(n.content);
  }

  lemma {:induction false} ChildrenLinksAtMostNodes(ns: seq<Node>)
    ensures |ChildrenLinks(ns)| <= SizeAll(ns)
    decreases ns, 0
  {
    if |ns| > 0 {
      ChildrenLinksAtMostNodes(ns[..|ns| - 1]);
      LinksAtMostNodes(ns[|ns| - 1]);
    }
  }

  /** The own link of `n` or of some node below it is `l`. */
  ghost predicate OwnedWithin(n: Node, l: string) {
    exists m :: Within(m, n) && OwnLink(m) == Some(l)
  }

  /** Every collected link is the own link of some node of the tree, and every node's own
      link is collected. */
  lemma {:induction false} LinksAreOwnLinks(n: Node, l: string)
    ensures l in Links(n) <==> exists m :: Within(m, n) && OwnLink(m) == Some(l)
    decreases n, 1
  {
    ChildrenLinksAreOwnLinks(n.content, l);
    if l in Links(n) && l !in ChildrenLinks(n.content) {
      assert Within(n, n);
    }
    if m :| Within(m, n) && OwnLink(m) == Some(l) {
      if m != n {
        var i :| 0 <= i < |n.content| && Within(m, n.content[i]);
        assert OwnedWithin(n.content[i], l);
      }
    }
  }

  lemma {:induction false} ChildrenLinksAreOwnLinks(ns: seq<Node>, l: string)
    ensures l in ChildrenLinks(ns) <==> exists i :: 0 <= i < |ns| && OwnedWithin(ns[i], l)
    decreases ns, 0
  {
    if |ns| > 0 {
      var init, last := ns[..|ns| - 1], ns[|ns| - 1];
      ChildrenLinksAreOwnLinks(init, l);
      LinksAreOwnLinks(last, l);
      assert OwnedWithin(last, l) <==> exists m :: Within(m, last) && OwnLink(m) == Some(l);
      ChildrenLinksSnoc(ns, l);
      OwnedWithinSnoc(ns, init, last, l);
    }
  }

  lemma ChildrenLinksSnoc(ns: seq<Node>, l: string)
    requires |ns| > 0
    ensures l in ChildrenLinks(ns) <==> l in ChildrenLinks(ns[..|ns| - 1]) || l in Links(ns[|ns| - 1])
  {
    assert ChildrenLinks(ns) == ChildrenLinks(ns[..|ns| - 1]) + Links(ns[|ns| - 1]);
  }

  lemma OwnedWithinSnoc(ns: seq<Node>, init: seq<Node>, last: Node, l: string)
    requires |ns| > 0 && init == ns[..|ns| - 1] && last == ns[|ns| - 1]
    ensures (exists i :: 0 <= i < |ns| && OwnedWithin(ns[i], l))
        <==> (exists i :: 0 <= i < |init| && OwnedWithin(init[i], l)) || OwnedWithin(last, l)
  {
    if i :| 0 <= i < |ns| && OwnedWithin(ns[i], l) {
      if i < |init| {
        assert ns[i] == init[i];
      }
    }
    if i :| 0 <= i < |init| && OwnedWithin(init[i], l) {
      assert ns[i] == init[i];
    }
  }
}

=== FILE: feed_manip.dfy ===
/** The feed tuner of src/lib/api/feed-manip.ts: it turns a newest-first page of feed
    items into display slices (self-reply threads, reposts, replies with their parent),
    drops what earlier pages already showed, sorts newest first, runs the optional
    filter passes and remembers every post it returned. */
module FeedManip {
  import opened Optional
  import opened Seqs
  import opened StringOrder

  // ---------------------------------------------------------------------------
  // Data model
  // ---------------------------------------------------------------------------

  /** A post as the server shows it: only the fields the tuner reads. */
  datatype Post = Post(uri: string, authorDid: string, indexedAt: string, upvoteCount: Option<int>)

  /** The `reply` of a feed item: the post it answers. */
  datatype ReplyRef = ReplyRef(parent: Post)

  /** The `reason` of a feed item: present when the item is a repost. */
  datatype Reason = Reason(indexedAt: string, byDid: string)

  /** One raw entry of a feed page. */
  datatype FeedItem = FeedItem(post: Post, reply: Option<ReplyRef>, reason: Option<Reason>)

  /** A group of feed items displayed together. */
  datatype FeedSlice = FeedSlice(items: seq<FeedItem>)

  /** The tuner only ever builds slices holding at least one item. */
  type Slice = s: FeedSlice | |s.items| > 0
    witness FeedSlice([FeedItem(Post("", "", "", None), None, None)])

  // ---------------------------------------------------------------------------
  // Self-replies
  // ---------------------------------------------------------------------------

  /** The parent's URI when the item answers a post by its own author, nothing otherwise. */
  function SelfReplyUri(item: FeedItem): (r: Option<string>)
    ensures r.Some? <==> item.reply.Some? && item.reply.value.parent.authorDid == item.post.authorDid
    ensures r.Some? ==> r.value == item.reply.value.parent.uri
  {
    match item.reply
    case Some(reply) => if reply.parent.authorDid == item.post.authorDid then Some(reply.parent.uri) else None
    case None => None
  }

  /** `parent` holds the post that `item` self-replies to. */
  predicate IsSelfReplyParent(parent: FeedItem, item: FeedItem) {
    SelfReplyUri(item) == Some(parent.post.uri)
  }

  // ---------------------------------------------------------------------------
  // Slice accessors
  // ---------------------------------------------------------------------------

  /** More than one item, all by the author of the first. */
  predicate IsThread(s: Slice) {
    |s.items| > 1 && forall i :: 0 <= i < |s.items| ==> s.items[i].post.authorDid == s.items[0].post.authorDid
  }

  /** A lone reply shown under its parent. */
  predicate IsReply(s: Slice) {
    |s.items| == 2 && !IsThread(s)
  }

  function Uri(s: Slice): string {
    if IsReply(s) then s.items[1].post.uri else s.items[0].post.uri
  }

  /** The sort key: the repost time when there is one, the post's own time otherwise. */
  function Ts(s: Slice): string {
    var first := s.items[0];
    if first.reason.Some? && first.reason.value.indexedAt != "" then first.reason.value.indexedAt
    else first.post.indexedAt
  }

  function RootItem(s: Slice): FeedItem {
    if IsReply(s) then s.items[1] else s.items[0]
  }

  predicate ContainsUri(s: FeedSlice, uri: string) {
    exists i :: 0 <= i < |s.items| && s.items[i].post.uri == uri
  }

  lemma SliceAccessors(s: Slice)
    ensures IsReply(s) ==> Uri(s) == s.items[1].post.uri && RootItem(s) == s.items[1]
    ensures !IsReply(s) ==> Uri(s) == s.items[0].post.uri && RootItem(s) == s.items[0]
    ensures Uri(s) == RootItem(s).post.uri
    ensures ContainsUri(s, Uri(s))
    ensures IsThread(s) ==> !IsReply(s)
    ensures |s.items| == 1 ==> !IsThread(s) && !IsReply(s)
    ensures s.items[0].reason.Some? && s.items[0].reason.value.indexedAt != "" ==> Ts(s) == s.items[0].reason.value.indexedAt
    ensures (s.items[0].reason.None? || s.items[0].reason.value.indexedAt == "") ==> Ts(s) == s.items[0].post.indexedAt
  {
    if IsReply(s) {
      assert s.items[1].post.uri == Uri(s);
    } else {
      assert s.items[0].post.uri == Uri(s);
    }
  }

  /** Adds `item` right after the first item it self-replies to, or at the end. */
  function Insert(s: Slice, item: FeedItem): (r: Slice)
    ensures |r.items| == |s.items| + 1
    ensures multiset(r.items) == multiset(s.items) + multiset{item}
  {
    match FirstIndex(s.items, IsParentOf(item))
    case Some(i) =>
      assert s.items == s.items[..i + 1] + s.items[i + 1..];
      FeedSlice(s.items[..i + 1] + [item] + s.items[i + 1..])
    case None => FeedSlice(s.items + [item])
  }

  /** Where `Insert` puts the item: after the first of its self-reply parents, else last. */
  lemma InsertPlacement(s: Slice, item: FeedItem)
    ensures (forall k :: 0 <= k < |s.items| ==> !IsSelfReplyParent(s.items[k], item)) ==>
              Insert(s, item).items == s.items + [item]
    ensures forall k ::
              (0 <= k < |s.items| && IsSelfReplyParent(s.items[k], item) &&
               forall j :: 0 <= j < k ==> !IsSelfReplyParent(s.items[j], item)) ==>
              Insert(s, item).items == s.items[..k + 1] + [item] + s.items[k + 1..]
  {
    match FirstIndex(s.items, IsParentOf(item))
    case Some(i) =>
      assert IsSelfReplyParent(s.items[i], item);
    case None =>
  }

  function IsParentOf(item: FeedItem): FeedItem -> bool {
    (p: FeedItem) => IsSelfReplyParent(p, item)
  }

  /** Puts the post a lone reply answers in front of it, as an item with no reply and no reason. */
  function FlattenReplyParent(s: Slice): (r: Slice)
    ensures s.items[0].reply.Some? ==> r.items == [FeedItem(s.items[0].reply.value.parent, None, None)] + s.items
    ensures s.items[0].reply.None? ==> r == s
  {
    match s.items[0].reply
    case Some(reply) => FeedSlice([FeedItem(reply.parent, None, None)] + s.items)
    case None => s
  }

  // ---------------------------------------------------------------------------
  // Stage 1: thread assembly
  // ---------------------------------------------------------------------------

  function HoldsUri(uri: string): Slice -> bool {
    (s: Slice) => ContainsUri(s, uri)
  }

  /** One step of the reverse scan: a self-reply joins the first slice holding its parent,
      anything else starts a new slice in front. */
  function AddToThreads(slices: seq<Slice>, item: FeedItem): (r: seq<Slice>)
    ensures |r| == |slices| || r == [FeedSlice([item])] + slices
    ensures r == [FeedSlice([item])] + slices <==>
              || !Truthy(SelfReplyUri(item))
              || forall k :: 0 <= k < |slices| ==> !ContainsUri(slices[k], SelfReplyUri(item).value)
  {
    var selfReplyUri := SelfReplyUri(item);
    if Truthy(selfReplyUri) then
      match FirstIndex(slices, HoldsUri(selfReplyUri.value))
      case Some(k) => slices[k := Insert(slices[k], item)]
      case None => [FeedSlice([item])] + slices
    else [FeedSlice([item])] + slices
  }

  /** The slices built from `feed`, scanning it from its last (oldest) item to its first. */
  function Assemble(feed: seq<FeedItem>): (r: seq<Slice>)
    ensures |r| <= |feed|
    ensures |feed| > 0 ==> |r| > 0
    decreases |feed|
  {
    if |feed| == 0 then [] else AddToThreads(Assemble(feed[1..]), feed[0])
  }

  /** Every item of every slice, counted with multiplicity. */
  function AllItems(slices: seq<FeedSlice>): multiset<FeedItem>
    decreases |slices|
  {
    if |slices| == 0 then multiset{} else multiset(slices[0].items) + AllItems(slices[1..])
  }

  lemma AllItemsCons(x: FeedSlice, slices: seq<FeedSlice>)
    ensures AllItems([x] + slices) == multiset(x.items) + AllItems(slices)
  {
    assert ([x] + slices)[1..] == slices;
  }

  lemma {:induction false} AllItemsUpdate(slices: seq<FeedSlice>, k: nat, x: FeedSlice)
    requires k < |slices|
    ensures AllItems(slices[k := x]) + multiset(slices[k].items) == AllItems(slices) + multiset(x.items)
    decreases k
  {
    var updated := slices[k := x];
    var tail := slices[1..];
    assert slices == [slices[0]] + tail;
    AllItemsCons(slices[0], tail);
    if k == 0 {
      assert updated == [x] + tail;
      AllItemsCons(x, tail);
    } else {
      AllItemsUpdate(tail, k - 1, x);
      assert tail[k - 1] == slices[k];
      assert updated == [slices[0]] + tail[k - 1 := x];
      AllItemsCons(slices[0], tail[k - 1 := x]);
      RegroupSums(AllItems(updated), AllItems(tail[k - 1 := x]), AllItems(slices), AllItems(tail),
              multiset(slices[0].items), multiset(slices[k].items), multiset(x.items));
    }
  }

  lemma RegroupSums<T>(u: multiset<T>, u': multiset<T>, s: multiset<T>, s': multiset<T>,
                   head: multiset<T>, before: multiset<T>, after: multiset<T>)
    requires u == head + u' && s == head + s'
    requires u' + before == s' + after
    ensures u + before == s + after
  {
    calc {
      u + before;
      head + (u' + before);
      head + (s' + after);
      s + after;
    }
  }

  lemma AddToThreadsConserves(slices: seq<Slice>, item: FeedItem)
    ensures AllItems(AddToThreads(slices, item)) == AllItems(slices) + multiset{item}
  {
    var selfReplyUri := SelfReplyUri(item);
    if Truthy(selfReplyUri) && FirstIndex(slices, HoldsUri(selfReplyUri.value)).Some? {
      var k := FirstIndex(slices, HoldsUri(selfReplyUri.value)).value;
      JoinConserves(slices, k, item);
    } else {
      AllItemsCons(FeedSlice([item]), slices);
    }
  }

  lemma JoinConserves(slices: seq<Slice>, k: nat, item: FeedItem)
    requires k < |slices|
    ensures AllItems(slices[k := Insert(slices[k], item)]) == AllItems(slices) + multiset{item}
  {
    var grown := Insert(slices[k], item);
    AllItemsUpdate(slices, k, grown);
    Cancel(AllItems(slices[k := grown]), AllItems(slices), multiset(slices[k].items), multiset{item});
  }

  lemma Cancel<T>(a: multiset<T>, b: multiset<T>, common: multiset<T>, extra: multiset<T>)
    requires a + common == b + (common + extra)
    ensures a == b + extra
  {
    forall e
      ensures a[e] == (b + extra)[e]
    {
      assert (a + common)[e] == (b + (common + extra))[e];
    }
  }

  /** Thread assembly loses nothing and invents nothing: every feed item lands in exactly one slice. */
  lemma {:induction false} AssembleConserves(feed: seq<FeedItem>)
    ensures AllItems(Assemble(feed)) == multiset(feed)
    decreases |feed|
  {
    if |feed| > 0 {
      var rest := feed[1..];
      var before := Assemble(rest);
      AssembleConserves(rest);
      AddToThreadsConserves(before, feed[0]);
      assert Assemble(feed) == AddToThreads(before, feed[0]);
      MultisetCons(feed);
    }
  }

  lemma MultisetCons<T>(s: seq<T>)
    requires |s| > 0
    ensures multiset(s) == multiset(s[1..]) + multiset{s[0]}
  {
    assert s == [s[0]] + s[1..];
  }

  /** Without self-replies every item becomes its own slice, in feed order. */
  lemma {:induction false} AssembleWithoutSelfReplies(feed: seq<FeedItem>)
    requires forall i :: 0 <= i < |feed| ==> !Truthy(SelfReplyUri(feed[i]))
    ensures |Assemble(feed)| == |feed|
    ensures forall i :: 0 <= i < |feed| ==> Assemble(feed)[i].items == [feed[i]]
    decreases |feed|
  {
    if |feed| > 0 {
      AssembleWithoutSelfReplies(feed[1..]);
      var rest := Assemble(feed[1..]);
      assert Assemble(feed) == [FeedSlice([feed[0]])] + rest;
      forall i | 1 <= i < |feed|
        ensures Assemble(feed)[i].items == [feed[i]]
      {
        assert Assemble(feed)[i] == rest[i - 1];
        assert feed[1..][i - 1] == feed[i];
      }
    }
  }

  /** A self-reply listed before (newer than) its same-author parent joins it as a two-item thread. */
  lemma SelfReplyJoinsParent(parent: FeedItem, reply: FeedItem)
    requires parent.post.uri != ""
    requires SelfReplyUri(reply) == Some(parent.post.uri)
    requires parent.post.authorDid == reply.post.authorDid
    ensures Assemble([reply, parent]) == [FeedSlice([parent, reply])]
    ensures IsThread(Assemble([reply, parent])[0])
  {
    var single: Slice := FeedSlice([parent]);
    assert [reply, parent][1..] == [parent];
    LoneItemAssembles(parent);
    ReplyJoinsLoneParent(parent, reply);
  }

  /** One item on its own makes one single-item slice. */
  lemma LoneItemAssembles(item: FeedItem)
    ensures Assemble([item]) == [FeedSlice([item])]
  {
    assert [item][1..] == [];
  }

  lemma ReplyJoinsLoneParent(parent: FeedItem, reply: FeedItem)
    requires parent.post.uri != ""
    requires SelfReplyUri(reply) == Some(parent.post.uri)
    requires parent.post.authorDid == reply.post.authorDid
    ensures AddToThreads([FeedSlice([parent])], reply) == [FeedSlice([parent, reply])]
    ensures IsThread(FeedSlice([parent, reply]))
  {
    var single: Slice := FeedSlice([parent]);
    LoneSliceHoldsParent(parent);
    AddToThreadsJoins([single], reply, 0);
    ReplyFollowsLoneParent(parent, reply);
    assert Insert(single, reply) == FeedSlice([parent, reply]);
  }

  /** A self-reply whose parent some slice holds goes into the first such slice. */
  lemma AddToThreadsJoins(slices: seq<Slice>, item: FeedItem, k: nat)
    requires Truthy(SelfReplyUri(item))
    requires FirstIndex(slices, HoldsUri(SelfReplyUri(item).value)) == Some(k)
    ensures k < |slices| && AddToThreads(slices, item) == slices[k := Insert(slices[k], item)]
  {
  }

  lemma LoneSliceHoldsParent(parent: FeedItem)
    ensures FirstIndex<Slice>([FeedSlice([parent])], HoldsUri(parent.post.uri)) == Some(0)
  {
    var single: Slice := FeedSlice([parent]);
    assert single.items[0].post.uri == parent.post.uri;
    assert HoldsUri(parent.post.uri)(single);
  }

  lemma ReplyFollowsLoneParent(parent: FeedItem, reply: FeedItem)
    requires SelfReplyUri(reply) == Some(parent.post.uri)
    ensures Insert(FeedSlice([parent]), reply).items == [parent, reply]
  {
    var single: Slice := FeedSlice([parent]);
    assert FirstIndex(single.items, IsParentOf(reply)) == Some(0) by {
      assert IsParentOf(reply)(single.items[0]);
    }
    assert single.items[..1] == [parent] && single.items[1..] == [];
  }

  // ---------------------------------------------------------------------------
  // Stage 2: cross-page de-duplication
  // ---------------------------------------------------------------------------

  function Unseen(seen: set<string>): Slice -> bool {
    (s: Slice) => Uri(s) !in seen
  }

  /** The slices whose identifying URI was not shown on an earlier page. */
  function DropSeen(slices: seq<Slice>, seen: set<string>): (r: seq<Slice>)
    ensures IsSubseq(r, slices)
    ensures forall i :: 0 <= i < |r| ==> Uri(r[i]) !in seen
    ensures forall i :: 0 <= i < |slices| && Uri(slices[i]) !in seen ==> slices[i] in r
    ensures |r| + |Filter(slices, Not(Unseen(seen)))| == |slices|
  {
    FilterIsSubseq(slices, Unseen(seen));
    FilterMembers(slices, Unseen(seen));
    FilterSplit(slices, Unseen(seen));
    Filter(slices, Unseen(seen))
  }

  // ---------------------------------------------------------------------------
  // Stage 3: reply contextualisation
  // ---------------------------------------------------------------------------

  /** A lone, non-repost reply whose parent was not shown yet. */
  predicate NeedsParentContext(s: Slice, seen: set<string>) {
    && !IsThread(s)
    && s.items[0].reason.None?
    && s.items[0].reply.Some?
    && s.items[0].reply.value.parent.uri !in seen
  }

  function Contextualize(s: Slice, seen: set<string>): (r: Slice)
    ensures NeedsParentContext(s, seen) ==> r == FlattenReplyParent(s) && |r.items| == |s.items| + 1
    ensures !NeedsParentContext(s, seen) ==> r == s
  {
    if NeedsParentContext(s, seen) then FlattenReplyParent(s) else s
  }

  function ContextualizeAll(slices: seq<Slice>, seen: set<string>): (r: seq<Slice>)
    ensures |r| == |slices|
    ensures forall i :: 0 <= i < |r| ==> r[i] == Contextualize(slices[i], seen)
  {
    seq(|slices|, i requires 0 <= i < |slices| => Contextualize(slices[i], seen))
  }

  /** Attaching a parent never makes a slice show a URI that was already seen. */
  lemma ContextualizeKeepsUnseen(s: Slice, seen: set<string>)
    requires Uri(s) !in seen
    ensures Uri(Contextualize(s, seen)) !in seen
  {
    var r := Contextualize(s, seen);
    if NeedsParentContext(s, seen) {
      if IsReply(r) {
        assert r.items[1] == s.items[0];
        assert !IsReply(s);
      } else {
        assert r.items[0].post == s.items[0].reply.value.parent;
      }
    }
  }

  /** A one-item reply slice gains its parent exactly when that parent was not seen. */
  lemma ContextBoundary(item: FeedItem, seen: set<string>)
    requires item.reply.Some? && item.reason.None?
    ensures item.reply.value.parent.uri in seen ==> Contextualize(FeedSlice([item]), seen).items == [item]
    ensures item.reply.value.parent.uri !in seen ==>
              Contextualize(FeedSlice([item]), seen).items == [FeedItem(item.reply.value.parent, None, None), item]
  {
  }

  // ---------------------------------------------------------------------------
  // Stage 4: sort, newest first
  // ---------------------------------------------------------------------------

  predicate SortedNewestFirst(slices: seq<Slice>) {
    forall i, j :: 0 <= i < j < |slices| ==> LexLe(Ts(slices[j]), Ts(slices[i]))
  }

  lemma NewestInFront(x: Slice, slices: seq<Slice>)
    requires SortedNewestFirst(slices)
    requires |slices| > 0 && LexLe(Ts(slices[0]), Ts(x))
    ensures SortedNewestFirst([x] + slices)
  {
    forall j | 0 < j < |slices|
      ensures LexLe(Ts(slices[j]), Ts(x))
    {
      LexLeTrans(Ts(slices[j]), Ts(slices[0]), Ts(x));
    }
  }

  lemma OlderBehindHead(slices: seq<Slice>, x: Slice, rest: seq<Slice>)
    requires |slices| > 0 && SortedNewestFirst(slices) && SortedNewestFirst(rest)
    requires LexLe(Ts(x), Ts(slices[0]))
    requires multiset(rest) == multiset(slices[1..]) + multiset{x}
    ensures SortedNewestFirst([slices[0]] + rest)
  {
    forall j | 0 <= j < |rest|
      ensures LexLe(Ts(rest[j]), Ts(slices[0]))
    {
      assert rest[j] in multiset(rest);
      if rest[j] != x {
        assert rest[j] in slices[1..];
      }
    }
  }

  /** Inserts `x` in front of the first slice that is not newer than it. */
  function InsertByTs(x: Slice, slices: seq<Slice>): (r: seq<Slice>)
    requires SortedNewestFirst(slices)
    ensures SortedNewestFirst(r)
    ensures multiset(r) == multiset(slices) + multiset{x}
    decreases |slices|
  {
    if |slices| == 0 then [x]
    else if LexLe(Ts(slices[0]), Ts(x)) then
      NewestInFront(x, slices);
      [x] + slices
    else
      LexLeTotal(Ts(slices[0]), Ts(x));
      var rest := InsertByTs(x, slices[1..]);
      OlderBehindHead(slices, x, rest);
      assert slices == [slices[0]] + slices[1..];
      [slices[0]] + rest
  }

  /** Orders slices by `Ts`, newest first. */
  function SortByTs(slices: seq<Slice>): (r: seq<Slice>)
    ensures SortedNewestFirst(r)
    ensures multiset(r) == multiset(slices)
    decreases |slices|
  {
    if |slices| == 0 then []
    else
      assert slices == [slices[0]] + slices[1..];
      InsertByTs(slices[0], SortByTs(slices[1..]))
  }

  /** Deleting slices from a sorted list leaves it sorted. */
  lemma {:induction false} SubseqStaysSorted(a: seq<Slice>, b: seq<Slice>)
    requires IsSubseq(a, b) && SortedNewestFirst(b)
    ensures SortedNewestFirst(a)
    decreases |b|
  {
    if |a| > 0 {
      if a[0] == b[0] && IsSubseq(a[1..], b[1..]) {
        SubseqStaysSorted(a[1..], b[1..]);
        SubseqMembers(a[1..], b[1..]);
        forall j | 0 < j < |a|
          ensures LexLe(Ts(a[j]), Ts(a[0]))
        {
          assert a[j] == a[1..][j - 1];
          assert a[j] in b[1..];
        }
      } else {
        SubseqStaysSorted(a, b[1..]);
      }
    }
  }

  // ---------------------------------------------------------------------------
  // Stage 5: the built-in tuner passes
  // ---------------------------------------------------------------------------

  /** The passes a caller can ask `tune` to run, in its chosen order. */
  datatype TunerFn = DedupRepostsFn | LikedRepliesOnlyFn

  /** `s` survives the de-duplication against the earlier slice `lead`. */
  predicate KeptBy(lead: Slice, s: Slice) {
    IsThread(s) || !ContainsUri(lead, s.items[0].post.uri)
  }

  function KeepAfter(lead: Slice): Slice -> bool {
    (s: Slice) => KeptBy(lead, s)
  }

  /** No non-thread slice leads with a post that an earlier slice already holds. */
  predicate NoRepostDuplicates(slices: seq<Slice>) {
    forall i, j :: 0 <= i < j < |slices| && !IsThread(slices[j]) ==>
      !ContainsUri(slices[i], slices[j].items[0].post.uri)
  }

  lemma DedupStep(slices: seq<Slice>, rest: seq<Slice>, d: seq<Slice>)
    requires |slices| > 0 && rest == Filter(slices[1..], KeepAfter(slices[0]))
    requires IsSubseq(d, rest) && NoRepostDuplicates(d)
    requires Filter(d, IsThread) == Filter(rest, IsThread)
    ensures IsSubseq([slices[0]] + d, slices)
    ensures NoRepostDuplicates([slices[0]] + d)
    ensures Filter([slices[0]] + d, IsThread) == Filter(slices, IsThread)
  {
    var lead := slices[0];
    var r := [lead] + d;
    FilterIsSubseq(slices[1..], KeepAfter(lead));
    SubseqTrans(d, rest, slices[1..]);
    assert r[1..] == d;
    SubseqMembers(d, rest);
    forall i, j | 0 <= i < j < |r| && !IsThread(r[j])
      ensures !ContainsUri(r[i], r[j].items[0].post.uri)
    {
      assert r[j] == d[j - 1];
      if i > 0 {
        assert r[i] == d[i - 1];
      } else {
        assert d[j - 1] in rest;
        var m :| 0 <= m < |rest| && rest[m] == d[j - 1];
        assert KeepAfter(lead)(rest[m]);
      }
    }
    FilterCons(lead, d, IsThread);
    FilterAbsorbs(slices[1..], KeepAfter(lead), IsThread);
    FilterCons(lead, slices[1..], IsThread);
    assert slices == [lead] + slices[1..];
  }

  /** Slice `j` is a thread, or no slice before it holds the post it leads with. */
  predicate FirstToShow(slices: seq<Slice>, j: nat)
    requires j < |slices|
  {
    IsThread(slices[j]) || forall i :: 0 <= i < j ==> !ContainsUri(slices[i], slices[j].items[0].post.uri)
  }

  /** Keeps the first of several slices showing the same post; thread slices are never removed. */
  function DedupReposts(slices: seq<Slice>): (r: seq<Slice>)
    ensures IsSubseq(r, slices)
    ensures NoRepostDuplicates(r)
    ensures Filter(r, IsThread) == Filter(slices, IsThread)
    ensures forall j :: 0 <= j < |slices| && FirstToShow(slices, j) ==> slices[j] in r
    ensures forall j :: 0 <= j < |slices| && slices[j] !in r ==> !IsThread(slices[j]) && ShownBefore(slices, r, j)
    ensures forall j :: 0 <= j < |slices| && FirstToShow(slices, j) ==> KeptInPlace(slices, r, j)
    decreases |slices|
  {
    if |slices| == 0 then []
    else
      var rest := Filter(slices[1..], KeepAfter(slices[0]));
      var d := DedupReposts(rest);
      DedupStep(slices, rest, d);
      DedupKeepsStep(slices, rest, d);
      DedupDropsStep(slices, rest, d);
      DedupPlacesStep(slices, rest, d);
      [slices[0]] + d
  }

  /** Slice `j` appears in `r` at a position whose prefix is drawn, in order, from the slices
      before `j`: the copy kept is this one, not a later equal one. */
  predicate KeptInPlace(slices: seq<Slice>, r: seq<Slice>, j: nat)
    requires j < |slices|
  {
    exists m :: 0 <= m < |r| && r[m] == slices[j] && IsSubseq(r[..m], slices[..j])
  }

  /** The head is kept at the front; a later slice first to show its post is placed by the
      recursive call behind the head. */
  lemma DedupPlacesStep(slices: seq<Slice>, rest: seq<Slice>, d: seq<Slice>)
    requires |slices| > 0 && rest == Filter(slices[1..], KeepAfter(slices[0]))
    requires forall k :: 0 <= k < |rest| && FirstToShow(rest, k) ==> KeptInPlace(rest, d, k)
    ensures forall j :: 0 <= j < |slices| && FirstToShow(slices, j) ==> KeptInPlace(slices, [slices[0]] + d, j)
  {
    var r := [slices[0]] + d;
    forall j | 0 <= j < |slices| && FirstToShow(slices, j)
      ensures KeptInPlace(slices, r, j)
    {
      if j == 0 {
        assert r[0] == slices[0] && IsSubseq(r[..0], slices[..0]);
      } else {
        var m := PlacedIndex(slices, rest, d, j);
      }
    }
  }

  lemma PlacedIndex(slices: seq<Slice>, rest: seq<Slice>, d: seq<Slice>, j: nat) returns (m: nat)
    requires 0 < j < |slices| && FirstToShow(slices, j)
    requires rest == Filter(slices[1..], KeepAfter(slices[0]))
    requires forall k :: 0 <= k < |rest| && FirstToShow(rest, k) ==> KeptInPlace(rest, d, k)
    ensures m < |[slices[0]] + d| && ([slices[0]] + d)[m] == slices[j]
    ensures IsSubseq(([slices[0]] + d)[..m], slices[..j])
  {
    var k := SurvivorIndex(slices, rest, j);
    assert KeptInPlace(rest, d, k);
    var m' :| 0 <= m' < |d| && d[m'] == rest[k] && IsSubseq(d[..m'], rest[..k]);
    SubseqTrans(d[..m'], rest[..k], slices[1..j]);
    m := m' + 1;
    var r := [slices[0]] + d;
    assert r[..m] == [slices[0]] + d[..m'];
    assert r[..m][1..] == d[..m'];
    assert slices[..j][1..] == slices[1..j];
  }

  /** Some slice before `j` that made it into `r` holds the post slice `j` leads with. */
  predicate ShownBefore(slices: seq<Slice>, r: seq<Slice>, j: nat)
    requires j < |slices|
  {
    exists i :: 0 <= i < j && slices[i] in r && ContainsUri(slices[i], slices[j].items[0].post.uri)
  }

  /** A slice missing from the result is a non-thread whose post an earlier kept slice holds:
      either the head, or the kept slice the recursive call names. */
  lemma DedupDropsStep(slices: seq<Slice>, rest: seq<Slice>, d: seq<Slice>)
    requires |slices| > 0 && rest == Filter(slices[1..], KeepAfter(slices[0]))
    requires forall k :: 0 <= k < |rest| && rest[k] !in d ==> !IsThread(rest[k]) && ShownBefore(rest, d, k)
    ensures forall j :: 0 <= j < |slices| && slices[j] !in [slices[0]] + d ==>
              !IsThread(slices[j]) && ShownBefore(slices, [slices[0]] + d, j)
  {
    var r := [slices[0]] + d;
    forall j | 0 < j < |slices| && slices[j] !in r
      ensures !IsThread(slices[j]) && ShownBefore(slices, r, j)
    {
      if !KeptBy(slices[0], slices[j]) {
        assert slices[0] in r;
      } else {
        var i := DroppedIndex(slices, rest, d, j);
        assert slices[i] in r;
      }
    }
  }

  /** Where the recursive call dropped slice `j`, the earlier kept slice it names sits before `j`. */
  lemma DroppedIndex(slices: seq<Slice>, rest: seq<Slice>, d: seq<Slice>, j: nat) returns (i: nat)
    requires 0 < j < |slices| && rest == Filter(slices[1..], KeepAfter(slices[0]))
    requires KeptBy(slices[0], slices[j]) && slices[j] !in d
    requires forall k :: 0 <= k < |rest| && rest[k] !in d ==> !IsThread(rest[k]) && ShownBefore(rest, d, k)
    ensures i < j && slices[i] in d && ContainsUri(slices[i], slices[j].items[0].post.uri)
    ensures !IsThread(slices[j])
  {
    var tail := slices[1..];
    assert tail[j - 1] == slices[j];
    assert KeepAfter(slices[0])(tail[j - 1]);
    var k := FilterIndex(tail, KeepAfter(slices[0]), j - 1);
    assert rest[k] !in d;
    var i' :| 0 <= i' < k && rest[i'] in d && ContainsUri(rest[i'], rest[k].items[0].post.uri);
    var before := tail[..j - 1];
    assert rest[i'] in before;
    var m :| 0 <= m < |before| && before[m] == rest[i'];
    assert slices[m + 1] == before[m];
    i := m + 1;
  }

  /** A slice that is first to show its post survives the filter against the head, still
      first to show it there; so the recursive call keeps it. */
  lemma DedupKeepsStep(slices: seq<Slice>, rest: seq<Slice>, d: seq<Slice>)
    requires |slices| > 0 && rest == Filter(slices[1..], KeepAfter(slices[0]))
    requires forall k :: 0 <= k < |rest| && FirstToShow(rest, k) ==> rest[k] in d
    ensures forall j :: 0 <= j < |slices| && FirstToShow(slices, j) ==> slices[j] in [slices[0]] + d
  {
    forall j | 0 < j < |slices| && FirstToShow(slices, j)
      ensures slices[j] in d
    {
      var k := SurvivorIndex(slices, rest, j);
    }
  }

  lemma SurvivorIndex(slices: seq<Slice>, rest: seq<Slice>, j: nat) returns (k: nat)
    requires 0 < j < |slices| && FirstToShow(slices, j)
    requires rest == Filter(slices[1..], KeepAfter(slices[0]))
    ensures k < |rest| && rest[k] == slices[j] && FirstToShow(rest, k)
    ensures IsSubseq(rest[..k], slices[1..j])
  {
    var tail := slices[1..];
    assert tail[j - 1] == slices[j];
    assert KeepAfter(slices[0])(tail[j - 1]);
    k := FilterIndex(tail, KeepAfter(slices[0]), j - 1);
    assert tail[..j - 1] == slices[1..j];
    FilterIsSubseq(slices[1..j], KeepAfter(slices[0]));
    if !IsThread(slices[j]) {
      var uri := slices[j].items[0].post.uri;
      var before := tail[..j - 1];
      forall i | 0 <= i < k
        ensures !ContainsUri(rest[i], uri)
      {
        assert rest[i] in before;
        var m :| 0 <= m < |before| && before[m] == rest[i];
        assert slices[m + 1] == before[m];
      }
    }
  }

  lemma DedupRepostsUnfold(slices: seq<Slice>)
    requires |slices| > 0
    ensures DedupReposts(slices) == [slices[0]] + DedupReposts(Filter(slices[1..], KeepAfter(slices[0])))
  {
  }

  /** A non-thread slice whose root is a reply, not a repost, with a like count of exactly zero. */
  predicate IsUnlikedReply(s: Slice) {
    var root := RootItem(s);
    !IsThread(s) && root.reply.Some? && root.reason.None? && root.post.upvoteCount == Some(0)
  }

  /** Drops exactly the unliked replies. */
  function LikedRepliesOnly(slices: seq<Slice>): (r: seq<Slice>)
    ensures IsSubseq(r, slices)
    ensures forall i :: 0 <= i < |r| ==> !IsUnlikedReply(r[i])
    ensures forall i :: 0 <= i < |slices| && !IsUnlikedReply(slices[i]) ==> slices[i] in r
    ensures |r| + |Filter(slices, IsUnlikedReply)| == |slices|
    ensures Filter(r, IsThread) == Filter(slices, IsThread)
  {
    FilterIsSubseq(slices, Not(IsUnlikedReply));
    FilterMembers(slices, Not(IsUnlikedReply));
    FilterSplit(slices, IsUnlikedReply);
    FilterAbsorbs(slices, Not(IsUnlikedReply), IsThread);
    Filter(slices, Not(IsUnlikedReply))
  }

  /** Deleting slices cannot create a repost duplicate. */
  lemma {:induction false} SubseqNoRepostDuplicates(a: seq<Slice>, b: seq<Slice>)
    requires IsSubseq(a, b) && NoRepostDuplicates(b)
    ensures NoRepostDuplicates(a)
    decreases |b|
  {
    if |a| > 0 {
      var tail := b[1..];
      assert NoRepostDuplicates(tail) by {
        forall i, j | 0 <= i < j < |tail| && !IsThread(tail[j])
          ensures !ContainsUri(tail[i], tail[j].items[0].post.uri)
        {
          assert tail[i] == b[i + 1] && tail[j] == b[j + 1];
        }
      }
      if a[0] == b[0] && IsSubseq(a[1..], tail) {
        SubseqNoRepostDuplicates(a[1..], tail);
        SubseqMembers(a[1..], tail);
        forall i, j | 0 <= i < j < |a| && !IsThread(a[j])
          ensures !ContainsUri(a[i], a[j].items[0].post.uri)
        {
          assert a[j] == a[1..][j - 1];
          if i > 0 {
            assert a[i] == a[1..][i - 1];
          } else {
            assert a[j] in tail;
            var m :| 0 <= m < |tail| && tail[m] == a[j];
            assert b[m + 1] == a[j];
          }
        }
      } else {
        SubseqNoRepostDuplicates(a, tail);
      }
    }
  }

  /** Deleting slices cannot bring back an unliked reply. */
  lemma SubseqNoUnlikedReplies(a: seq<Slice>, b: seq<Slice>)
    requires IsSubseq(a, b) && forall i :: 0 <= i < |b| ==> !IsUnlikedReply(b[i])
    ensures forall i :: 0 <= i < |a| ==> !IsUnlikedReply(a[i])
  {
    SubseqMembers(a, b);
  }

  /** One pass: it deletes slices, never a thread slice, and leaves its own guarantee behind. */
  function ApplyFn(f: TunerFn, slices: seq<Slice>): (r: seq<Slice>)
    ensures IsSubseq(r, slices)
    ensures Filter(r, IsThread) == Filter(slices, IsThread)
    ensures f == DedupRepostsFn ==> NoRepostDuplicates(r)
    ensures f == LikedRepliesOnlyFn ==> forall i :: 0 <= i < |r| ==> !IsUnlikedReply(r[i])
  {
    match f
    case DedupRepostsFn => DedupReposts(slices)
    case LikedRepliesOnlyFn => LikedRepliesOnly(slices)
  }

  /** A later pass only deletes, so the guarantee of an earlier pass still holds after it. */
  lemma PassGuaranteeSurvives(f: TunerFn, once: seq<Slice>, r: seq<Slice>)
    requires IsSubseq(r, once)
    requires f == DedupRepostsFn ==> NoRepostDuplicates(once)
    requires f == LikedRepliesOnlyFn ==> forall i :: 0 <= i < |once| ==> !IsUnlikedReply(once[i])
    ensures f == DedupRepostsFn ==> NoRepostDuplicates(r)
    ensures f == LikedRepliesOnlyFn ==> forall i :: 0 <= i < |r| ==> !IsUnlikedReply(r[i])
  {
    match f
    case DedupRepostsFn => SubseqNoRepostDuplicates(r, once);
    case LikedRepliesOnlyFn => SubseqNoUnlikedReplies(r, once);
  }

  /** Runs the passes in order, each on the previous one's output: thread slices all survive,
      and every pass that ran leaves its guarantee on the final result. */
  function ApplyFns(fns: seq<TunerFn>, slices: seq<Slice>): (r: seq<Slice>)
    ensures IsSubseq(r, slices)
    ensures Filter(r, IsThread) == Filter(slices, IsThread)
    ensures DedupRepostsFn in fns ==> NoRepostDuplicates(r)
    ensures LikedRepliesOnlyFn in fns ==> forall i :: 0 <= i < |r| ==> !IsUnlikedReply(r[i])
    decreases |fns|
  {
    if |fns| == 0 then
      SubseqRefl(slices);
      slices
    else
      var once := ApplyFn(fns[0], slices);
      var r := ApplyFns(fns[1..], once);
      ChainPasses(fns, slices, once, r);
      r
  }

  /** The first pass, then the rest: what each part keeps and guarantees holds of the whole run. */
  lemma ChainPasses(fns: seq<TunerFn>, slices: seq<Slice>, once: seq<Slice>, r: seq<Slice>)
    requires |fns| > 0
    requires IsSubseq(once, slices) && Filter(once, IsThread) == Filter(slices, IsThread)
    requires fns[0] == DedupRepostsFn ==> NoRepostDuplicates(once)
    requires fns[0] == LikedRepliesOnlyFn ==> forall i :: 0 <= i < |once| ==> !IsUnlikedReply(once[i])
    requires IsSubseq(r, once) && Filter(r, IsThread) == Filter(once, IsThread)
    requires DedupRepostsFn in fns[1..] ==> NoRepostDuplicates(r)
    requires LikedRepliesOnlyFn in fns[1..] ==> forall i :: 0 <= i < |r| ==> !IsUnlikedReply(r[i])
    ensures IsSubseq(r, slices) && Filter(r, IsThread) == Filter(slices, IsThread)
    ensures DedupRepostsFn in fns ==> NoRepostDuplicates(r)
    ensures LikedRepliesOnlyFn in fns ==> forall i :: 0 <= i < |r| ==> !IsUnlikedReply(r[i])
  {
    SubseqTrans(r, once, slices);
    PassGuaranteeSurvives(fns[0], once, r);
    assert fns == [fns[0]] + fns[1..];
  }

  // ---------------------------------------------------------------------------
  // The tuner session
  // ---------------------------------------------------------------------------

  /** The only state that survives between pages: the URIs of every post already returned. */
  datatype Tuner = Tuner(seenUris: set<string>)

  datatype TuneResult = TuneResult(tuner: Tuner, slices: seq<Slice>)

  function Reset(t: Tuner): (r: Tuner)
    ensures r.seenUris == {}
  {
    Tuner({})
  }

  /** The post URI of every item of every slice. */
  function PostUris(slices: seq<FeedSlice>): set<string> {
    set i, k | 0 <= i < |slices| && 0 <= k < |slices[i].items| :: slices[i].items[k].post.uri
  }

  /** The slices of one page, before the caller's passes. */
  function Prepare(seen: set<string>, feed: seq<FeedItem>): (r: seq<Slice>)
    ensures SortedNewestFirst(r)
    ensures forall i :: 0 <= i < |r| ==> Uri(r[i]) !in seen
    ensures multiset(r) == multiset(ContextualizeAll(DropSeen(Assemble(feed), seen), seen))
  {
    var newSlices := DropSeen(Assemble(feed), seen);
    var contextual := ContextualizeAll(newSlices, seen);
    ContextualizeAllKeepsUnseen(newSlices, seen);
    var sorted := SortByTs(contextual);
    SortKeepsUnseen(contextual, sorted, seen);
    sorted
  }

  lemma ContextualizeAllKeepsUnseen(newSlices: seq<Slice>, seen: set<string>)
    requires forall i :: 0 <= i < |newSlices| ==> Uri(newSlices[i]) !in seen
    ensures forall i :: 0 <= i < |newSlices| ==> Uri(ContextualizeAll(newSlices, seen)[i]) !in seen
  {
    forall i | 0 <= i < |newSlices|
      ensures Uri(ContextualizeAll(newSlices, seen)[i]) !in seen
    {
      ContextualizeKeepsUnseen(newSlices[i], seen);
    }
  }

  lemma SortKeepsUnseen(slices: seq<Slice>, sorted: seq<Slice>, seen: set<string>)
    requires multiset(sorted) == multiset(slices)
    requires forall i :: 0 <= i < |slices| ==> Uri(slices[i]) !in seen
    ensures forall i :: 0 <= i < |sorted| ==> Uri(sorted[i]) !in seen
  {
    forall i | 0 <= i < |sorted|
      ensures Uri(sorted[i]) !in seen
    {
      assert sorted[i] in multiset(slices);
    }
  }

  /** One page through the tuner: slices newest first, none repeating an earlier page's slice,
      and the seen set grown by exactly the posts returned. */
  function Tune(t: Tuner, feed: seq<FeedItem>, fns: seq<TunerFn>): (r: TuneResult)
    ensures SortedNewestFirst(r.slices)
    ensures forall i :: 0 <= i < |r.slices| ==> Uri(r.slices[i]) !in t.seenUris
    ensures r.tuner.seenUris == t.seenUris + PostUris(r.slices)
    ensures IsSubseq(r.slices, Prepare(t.seenUris, feed))
    ensures Filter(r.slices, IsThread) == Filter(Prepare(t.seenUris, feed), IsThread)
    ensures DedupRepostsFn in fns ==> NoRepostDuplicates(r.slices)
    ensures LikedRepliesOnlyFn in fns ==> forall i :: 0 <= i < |r.slices| ==> !IsUnlikedReply(r.slices[i])
    ensures fns == [] ==>
              multiset(r.slices) == multiset(ContextualizeAll(DropSeen(Assemble(feed), t.seenUris), t.seenUris))
  {
    var prepared := Prepare(t.seenUris, feed);
    var tuned := ApplyFns(fns, prepared);
    SubseqStaysSorted(tuned, prepared);
    SubseqMembers(tuned, prepared);
    TuneResult(Tuner(t.seenUris + PostUris(tuned)), tuned)
  }

  /** The seen set only grows while pages are tuned. */
  lemma SeenGrows(t: Tuner, feed: seq<FeedItem>, fns: seq<TunerFn>)
    ensures t.seenUris <= Tune(t, feed, fns).tuner.seenUris
    ensures forall i, k :: 0 <= i < |Tune(t, feed, fns).slices| && 0 <= k < |Tune(t, feed, fns).slices[i].items| ==>
              Tune(t, feed, fns).slices[i].items[k].post.uri in Tune(t, feed, fns).tuner.seenUris
  {
    var r := Tune(t, feed, fns);
    forall i, k | 0 <= i < |r.slices| && 0 <= k < |r.slices[i].items|
      ensures r.slices[i].items[k].post.uri in r.tuner.seenUris
    {
      assert r.slices[i].items[k].post.uri in PostUris(r.slices);
    }
  }

  /** A later page never brings back a slice led by a post an earlier page returned. */
  lemma NextPageSkipsShown(t: Tuner, page1: seq<FeedItem>, fns1: seq<TunerFn>, page2: seq<FeedItem>, fns2: seq<TunerFn>)
    ensures var first := Tune(t, page1, fns1);
            var second := Tune(first.tuner, page2, fns2);
            forall i, j, k :: 0 <= i < |second.slices| && 0 <= j < |first.slices| && 0 <= k < |first.slices[j].items| ==>
              Uri(second.slices[i]) != first.slices[j].items[k].post.uri
  {
    var first := Tune(t, page1, fns1);
    var second := Tune(first.tuner, page2, fns2);
    forall i, j, k | 0 <= i < |second.slices| && 0 <= j < |first.slices| && 0 <= k < |first.slices[j].items|
      ensures Uri(second.slices[i]) != first.slices[j].items[k].post.uri
    {
      assert first.slices[j].items[k].post.uri in PostUris(first.slices);
    }
  }

  /** After `reset`, nothing of the page is dropped as already seen. */
  lemma ResetForgets(t: Tuner, feed: seq<FeedItem>)
    ensures multiset(Tune(Reset(t), feed, []).slices) == multiset(ContextualizeAll(Assemble(feed), {}))
  {
    var threads := Assemble(feed);
    assert Filter(threads, Unseen({})) == threads by {
      FilterAll(threads, Unseen({}));
    }
  }

  lemma {:induction false} FilterAll(slices: seq<Slice>, keep: Slice -> bool)
    requires forall i :: 0 <= i < |slices| ==> keep(slices[i])
    ensures Filter(slices, keep) == slices
    decreases |slices|
  {
    if |slices| > 0 {
      FilterAll(slices[1..], keep);
    }
  }

  /** A repost of a post an earlier single-post slice shows is dropped; the earlier slice stays. */
  lemma DedupDropsRepostOfShown(plain: FeedItem, repost: FeedItem)
    requires repost.post == plain.post && repost.reason.Some?
    ensures DedupReposts([FeedSlice([plain]), FeedSlice([repost])]) == [FeedSlice([plain])]
  {
    var first: Slice := FeedSlice([plain]);
    var second: Slice := FeedSlice([repost]);
    var slices := [first, second];
    assert first.items[0].post.uri == second.items[0].post.uri;
    assert ContainsUri(first, second.items[0].post.uri);
    assert slices[1..] == [second];
    assert Filter([second], KeepAfter(first)) == [];
  }

  /** A lone reply is filtered out exactly when it is not a repost and has zero likes. */
  lemma LikedRepliesOnlyLoneReply(item: FeedItem)
    requires item.reply.Some?
    ensures var s: Slice := FeedSlice([item]);
            LikedRepliesOnly([s]) == [] <==> item.reason.None? && item.post.upvoteCount == Some(0)
  {
    var s: Slice := FeedSlice([item]);
    assert RootItem(s) == item;
    assert [s][1..] == [];
  }
}

=== FILE: feed_manip_loops.dfy ===
/** The loops of src/lib/api/feed-manip.ts as written there (reverse scans, in-place
    splices, nested passes), each proved to compute the stage FeedManip defines. */
module FeedManipLoops {
  import opened Optional
  import opened Seqs
  import opened FeedManip

  /** The thread-assembly loop: walks the page from its last item to its first. */
  method AssembleThreads(feed: seq<FeedItem>) returns (slices: seq<Slice>)
    ensures slices == Assemble(feed)
  {
    slices := [];
    var i := |feed|;
    while i > 0
      invariant 0 <= i <= |feed|
      invariant slices == Assemble(feed[i..])
    {
      i := i - 1;
      AssembleStep(feed, i);
      ghost var before := slices;
      var item := feed[i];
      var selfReplyUri := SelfReplyUri(item);
      var joined := false;
      if Truthy(selfReplyUri) {
        var parent := FirstIndex(slices, HoldsUri(selfReplyUri.value));
        if parent.Some? {
          slices := slices[parent.value := Insert(slices[parent.value], item)];
          joined := true;
        }
      }
      if !joined {
        slices := [FeedSlice([item])] + slices;
      }
      assert slices == AddToThreads(before, item);
    }
    assert feed[0..] == feed;
  }

  lemma AssembleStep(feed: seq<FeedItem>, i: nat)
    requires i < |feed|
    ensures Assemble(feed[i..]) == AddToThreads(Assemble(feed[i + 1..]), feed[i])
  {
    assert feed[i..][1..] == feed[i + 1..];
  }

  /** Removing from the back while scanning backwards: what stays is `Filter`. */
  lemma BackwardStep(original: seq<Slice>, j: nat, keep: Slice -> bool)
    requires 0 < j <= |original|
    ensures original[..j] == original[..j - 1] + [original[j - 1]]
    ensures Filter(original[j - 1..], keep) ==
            (if keep(original[j - 1]) then [original[j - 1]] else []) + Filter(original[j..], keep)
  {
    assert original[j - 1..][1..] == original[j..];
  }

  /** The backward scan with `splice(i, 1)` that both `tune`'s seen filter and `likedRepliesOnly` use. */
  method RemoveBackwards(original: seq<Slice>, keep: Slice -> bool) returns (slices: seq<Slice>)
    ensures slices == Filter(original, keep)
  {
    slices := original;
    var j := |original|;
    while j > 0
      invariant 0 <= j <= |original|
      invariant slices == original[..j] + Filter(original[j..], keep)
    {
      BackwardStep(original, j, keep);
      ghost var rest := Filter(original[j..], keep);
      assert slices == original[..j - 1] + [original[j - 1]] + rest;
      assert slices[..j - 1] == original[..j - 1] && slices[j - 1] == original[j - 1] && slices[j..] == rest;
      if !keep(slices[j - 1]) {
        slices := slices[..j - 1] + slices[j..];
      }
      j := j - 1;
    }
  }

  method DropSeenInPlace(original: seq<Slice>, seen: set<string>) returns (slices: seq<Slice>)
    ensures slices == DropSeen(original, seen)
    ensures forall i :: 0 <= i < |slices| ==> Uri(slices[i]) !in seen
  {
    slices := RemoveBackwards(original, Unseen(seen));
  }

  method LikedRepliesOnlyInPlace(original: seq<Slice>) returns (slices: seq<Slice>)
    ensures slices == LikedRepliesOnly(original)
    ensures forall i :: 0 <= i < |slices| ==> !IsUnlikedReply(slices[i])
  {
    slices := RemoveBackwards(original, Not<Slice>(IsUnlikedReply));
  }

  /** Stepping over a slice that stays keeps the loop's view of the filtered result. */
  lemma KeepStep(slices: seq<Slice>, j: nat, keep: Slice -> bool)
    requires j < |slices| && keep(slices[j])
    ensures slices[..j + 1] + Filter(slices[j + 1..], keep) == slices[..j] + Filter(slices[j..], keep)
  {
    assert slices[j..][1..] == slices[j + 1..];
    assert slices[..j + 1] == slices[..j] + [slices[j]];
  }

  /** Splicing out a slice that goes keeps the loop's view of the filtered result. */
  lemma SpliceStep(slices: seq<Slice>, j: nat, keep: Slice -> bool)
    requires j < |slices| && !keep(slices[j])
    ensures var shorter := slices[..j] + slices[j + 1..];
            shorter[..j] + Filter(shorter[j..], keep) == slices[..j] + Filter(slices[j..], keep)
  {
    var shorter := slices[..j] + slices[j + 1..];
    assert slices[j..][1..] == slices[j + 1..];
    assert shorter[..j] == slices[..j] && shorter[j..] == slices[j + 1..];
  }

  /** The inner loop of `dedupReposts`: splices out, in place, each later non-thread slice
      whose first post `lead` already shows. */
  method DropShownBy(lead: Slice, later: seq<Slice>) returns (slices: seq<Slice>)
    ensures slices == Filter(later, KeepAfter(lead))
  {
    slices := later;
    var j := 0;
    while j < |slices|
      invariant 0 <= j <= |slices|
      invariant slices[..j] + Filter(slices[j..], KeepAfter(lead)) == Filter(later, KeepAfter(lead))
      decreases |slices| - j
    {
      var next := slices[j];
      if IsThread(next) {
        KeepStep(slices, j, KeepAfter(lead));
        j := j + 1;
      } else if ContainsUri(lead, next.items[0].post.uri) {
        SpliceStep(slices, j, KeepAfter(lead));
        slices := slices[..j] + slices[j + 1..];
      } else {
        KeepStep(slices, j, KeepAfter(lead));
        j := j + 1;
      }
    }
    assert slices[j..] == [] && slices[..j] == slices;
  }

  lemma SpliceRegroup<T>(s: seq<T>, i: nat, kept: seq<T>, whole: seq<T>, part: seq<T>)
    requires i < |s| && whole == [s[i]] + part
    ensures (s[..i + 1] + kept)[..i + 1] + part == s[..i] + whole
    ensures (s[..i + 1] + kept)[i + 1..] == kept
  {
    assert (s[..i + 1] + kept)[..i + 1] == s[..i + 1] == s[..i] + [s[i]];
  }

  /** Fixing slice `i` after its later duplicates are gone keeps the outer loop's view. */
  lemma LeadStep(slices: seq<Slice>, i: nat, kept: seq<Slice>)
    requires i < |slices| && kept == Filter(slices[i + 1..], KeepAfter(slices[i]))
    ensures var next := slices[..i + 1] + kept;
            next[..i + 1] + DedupReposts(next[i + 1..]) == slices[..i] + DedupReposts(slices[i..])
  {
    var rest := slices[i..];
    assert rest[0] == slices[i] && rest[1..] == slices[i + 1..];
    DedupRepostsUnfold(rest);
    SpliceRegroup(slices, i, kept, DedupReposts(rest), DedupReposts(kept));
  }

  /** `dedupReposts` as written: for each slice in turn, the later slices it already shows go. */
  method DedupRepostsInPlace(original: seq<Slice>) returns (slices: seq<Slice>)
    ensures slices == DedupReposts(original)
    ensures NoRepostDuplicates(slices)
  {
    slices := original;
    var i := 0;
    while i < |slices|
      invariant 0 <= i <= |slices|
      invariant slices[..i] + DedupReposts(slices[i..]) == DedupReposts(original)
      decreases |slices| - i
    {
      var kept := DropShownBy(slices[i], slices[i + 1..]);
      LeadStep(slices, i, kept);
      slices := slices[..i + 1] + kept;
      i := i + 1;
    }
    assert slices[..i] == slices;
  }

  /** The URIs of a run of items. */
  function ItemUris(items: seq<FeedItem>): set<string> {
    set k | 0 <= k < |items| :: items[k].post.uri
  }

  lemma PostUrisExtend(slices: seq<FeedSlice>, i: nat)
    requires i < |slices|
    ensures PostUris(slices[..i + 1]) == PostUris(slices[..i]) + ItemUris(slices[i].items)
  {
    var longer := slices[..i + 1];
    forall u | u in PostUris(longer)
      ensures u in PostUris(slices[..i]) + ItemUris(slices[i].items)
    {
      var a, k :| 0 <= a < |longer| && 0 <= k < |longer[a].items| && longer[a].items[k].post.uri == u;
      if a < i {
        assert slices[..i][a] == longer[a];
      }
    }
    forall u | u in PostUris(slices[..i]) + ItemUris(slices[i].items)
      ensures u in PostUris(longer)
    {
      if u in PostUris(slices[..i]) {
        var a, k :| 0 <= a < i && 0 <= k < |slices[..i][a].items| && slices[..i][a].items[k].post.uri == u;
        assert longer[a] == slices[..i][a];
      } else {
        var k :| 0 <= k < |slices[i].items| && slices[i].items[k].post.uri == u;
        assert longer[i] == slices[i];
      }
    }
  }

  lemma ItemUrisExtend(items: seq<FeedItem>, k: nat)
    requires k < |items|
    ensures ItemUris(items[..k + 1]) == ItemUris(items[..k]) + {items[k].post.uri}
  {
    var longer := items[..k + 1];
    assert longer[k] == items[k];
    forall u | u in ItemUris(longer)
      ensures u in ItemUris(items[..k]) + {items[k].post.uri}
    {
      var m :| 0 <= m < |longer| && longer[m].post.uri == u;
      if m < k {
        assert items[..k][m] == longer[m];
      }
    }
    forall u | u in ItemUris(items[..k])
      ensures u in ItemUris(longer)
    {
      var m :| 0 <= m < k && items[..k][m].post.uri == u;
      assert longer[m] == items[..k][m];
    }
  }

  /** The commit loop at the end of `tune`: every post of every returned slice becomes seen. */
  method CommitSeen(seen: set<string>, slices: seq<Slice>) returns (seen': set<string>)
    ensures seen' == seen + PostUris(slices)
    ensures seen <= seen'
  {
    seen' := seen;
    var i := 0;
    while i < |slices|
      invariant 0 <= i <= |slices|
      invariant seen' == seen + PostUris(slices[..i])
    {
      var items := slices[i].items;
      var k := 0;
      while k < |items|
        invariant 0 <= k <= |items|
        invariant seen' == seen + PostUris(slices[..i]) + ItemUris(items[..k])
      {
        ItemUrisExtend(items, k);
        seen' := seen' + {items[k].post.uri};
        k := k + 1;
      }
      assert items[..k] == items;
      PostUrisExtend(slices, i);
      i := i + 1;
    }
    assert slices[..i] == slices;
  }

  /** The contextualisation loop of `tune`. */
  method ContextualizeInPlace(original: seq<Slice>, seen: set<string>) returns (slices: seq<Slice>)
    ensures slices == ContextualizeAll(original, seen)
  {
    slices := original;
    var i := 0;
    while i < |slices|
      invariant 0 <= i <= |slices| == |original|
      invariant forall m :: 0 <= m < i ==> slices[m] == Contextualize(original[m], seen)
      invariant forall m :: i <= m < |slices| ==> slices[m] == original[m]
    {
      var slice := slices[i];
      if !IsThread(slice) && slice.items[0].reason.None? && slice.items[0].reply.Some?
         && slice.items[0].reply.value.parent.uri !in seen {
        slices := slices[i := FlattenReplyParent(slice)];
      }
      i := i + 1;
    }
  }

  /** `tune` as written, stage by stage, on a tuner session. */
  method Tune(tuner: Tuner, feed: seq<FeedItem>, fns: seq<TunerFn>) returns (r: TuneResult)
    ensures r == FeedManip.Tune(tuner, feed, fns)
    ensures SortedNewestFirst(r.slices)
    ensures tuner.seenUris <= r.tuner.seenUris
  {
    var seen := tuner.seenUris;
    var slices := AssembleThreads(feed);
    slices := DropSeenInPlace(slices, seen);
    slices := ContextualizeInPlace(slices, seen);
    slices := SortByTs(slices);
    assert slices == Prepare(seen, feed);
    ghost var prepared := slices;
    var n := 0;
    while n < |fns|
      invariant 0 <= n <= |fns|
      invariant ApplyFns(fns[n..], slices) == ApplyFns(fns, prepared)
    {
      assert fns[n..][1..] == fns[n + 1..];
      match fns[n] {
        case DedupRepostsFn =>
          slices := DedupRepostsInPlace(slices);
        case LikedRepliesOnlyFn =>
          slices := LikedRepliesOnlyInPlace(slices);
      }
      n := n + 1;
    }
    assert fns[n..] == [];
    var seen' := CommitSeen(seen, slices);
    r := TuneResult(Tuner(seen'), slices);
  }
}

=== FILE: list_model.dfy ===
/** The pagination state of a list's members (`ListModel` in src/state/models/content/list.ts):
    the loading flags, the two error slots, the cursor and the accumulated items. The server's
    answer to one page request is a parameter of each loading action. */
module ListModel {
  import opened Optional

  /** How many items one request asks for. */
  const PAGE_SIZE: nat := 30

  /** The list's own record view: its URI and the DID of its creator. */
  datatype ListView = ListView(uri: string, creatorDid: string)

  /** A member of the list. `subject` is the member's DID; `reactKey` is `None` as the server
      sends it and set to the subject once the model stores the item. */
  datatype ListItem = ListItem(uri: string, subject: string, reactKey: Option<string>)

  /** One `getList` response: a page of items, the cursor of the next page, and the list. */
  datatype Page = Page(items: seq<ListItem>, cursor: Option<string>, list: ListView)

  /** What the request of one load gave: a page, or an error already reduced to its message. */
  datatype Outcome = Fetched(page: Page) | Failed(message: string)

  datatype ListState = ListState(
    uri: string,
    isLoading: bool,
    isRefreshing: bool,
    hasLoaded: bool,
    error: string,
    loadMoreError: string,
    hasMore: bool,
    loadMoreCursor: Option<string>,
    list: Option<ListView>,
    items: seq<ListItem>)

  /** A model constructed for the list at `uri`. */
  function Initial(uri: string): (r: ListState)
    ensures r.uri == uri && r.items == [] && r.list.None? && r.loadMoreCursor.None?
    ensures r.hasMore && !r.hasLoaded && !r.isLoading && r.error == "" && r.loadMoreError == ""
  {
    ListState(uri, false, false, false, "", "", true, None, None, [])
  }

  // ---------------------------------------------------------------------------
  // Derived getters
  // ---------------------------------------------------------------------------

  predicate HasContent(s: ListState) {
    |s.items| > 0
  }

  predicate HasError(s: ListState) {
    s.error != ""
  }

  predicate IsEmpty(s: ListState) {
    s.hasLoaded && !HasContent(s)
  }

  /** The signed-in user `meDid` created the list (never before the list has loaded). */
  predicate IsOwner(s: ListState, meDid: string) {
    s.list.Some? && s.list.value.creatorDid == meDid
  }

  // ---------------------------------------------------------------------------
  // Helper transitions
  // ---------------------------------------------------------------------------

  /** The items as stored: each keyed by its subject. */
  function Keyed(items: seq<ListItem>): (r: seq<ListItem>)
    ensures |r| == |items|
    ensures forall i :: 0 <= i < |r| ==>
              r[i].uri == items[i].uri && r[i].subject == items[i].subject && r[i].reactKey == Some(items[i].subject)
  {
    seq(|items|, i requires 0 <= i < |items| => items[i].(reactKey := Some(items[i].subject)))
  }

  lemma KeyedAppend(a: seq<ListItem>, b: seq<ListItem>)
    ensures Keyed(a + b) == Keyed(a) + Keyed(b)
  {
  }

  /** `_appendAll`: takes the page's cursor and list, and adds its items after the held ones. */
  function AppendAll(s: ListState, page: Page): (r: ListState)
    ensures r.items == s.items + Keyed(page.items)
    ensures r.loadMoreCursor == page.cursor
    ensures r.hasMore <==> page.cursor.Some? && page.cursor.value != ""
    ensures r.list == Some(page.list)
    ensures r.(items := s.items, loadMoreCursor := s.loadMoreCursor, hasMore := s.hasMore, list := s.list) == s
  {
    s.(loadMoreCursor := page.cursor,
       hasMore := Truthy(page.cursor),
       list := Some(page.list),
       items := s.items + Keyed(page.items))
  }

  /** `_replaceAll`: the page's items replace whatever was held. */
  function ReplaceAll(s: ListState, page: Page): (r: ListState)
    ensures r.items == Keyed(page.items)
    ensures r.(items := s.items + r.items) == AppendAll(s, page)
  {
    AppendAll(s.(items := []), page)
  }

  /** `_xLoading`: a load is under way; a previous load error is cleared. */
  function XLoading(s: ListState, isRefreshing: bool): (r: ListState)
    ensures r.isLoading && r.isRefreshing == isRefreshing && r.error == ""
    ensures r.(isLoading := s.isLoading, isRefreshing := s.isRefreshing, error := s.error) == s
  {
    s.(isLoading := true, isRefreshing := isRefreshing, error := "")
  }

  /** `_xIdle`: the load is over; each error slot holds its error's message, or "" without one. */
  function XIdle(s: ListState, err: Option<string>, loadMoreErr: Option<string>): (r: ListState)
    ensures !r.isLoading && !r.isRefreshing && r.hasLoaded
    ensures r.error == err.GetOr("") && r.loadMoreError == loadMoreErr.GetOr("")
    ensures r.(isLoading := s.isLoading, isRefreshing := s.isRefreshing, hasLoaded := s.hasLoaded,
               error := s.error, loadMoreError := s.loadMoreError) == s
  {
    s.(isLoading := false,
       isRefreshing := false,
       hasLoaded := true,
       error := if err.Some? then err.value else "",
       loadMoreError := if loadMoreErr.Some? then loadMoreErr.value else "")
  }

  // ---------------------------------------------------------------------------
  // loadMore, refresh, retryLoadMore
  // ---------------------------------------------------------------------------

  /** `loadMore` returns straight away when appending with nothing more to fetch. */
  predicate Skips(s: ListState, replace: bool) {
    !replace && !s.hasMore
  }

  /** The `getList` request a load sends. */
  datatype Request = Request(list: string, limit: nat, cursor: Option<string>)

  /** The request of a load: this list, one page's worth, and the stored cursor unless replacing. */
  function PageRequest(s: ListState, replace: bool): (r: Request)
    ensures r.list == s.uri && r.limit == PAGE_SIZE
    ensures replace ==> r.cursor.None?
    ensures !replace ==> r.cursor == s.loadMoreCursor
  {
    Request(s.uri, PAGE_SIZE, if replace then None else s.loadMoreCursor)
  }

  /** The state while the request is in flight. */
  function Begin(s: ListState, replace: bool): (r: ListState)
    ensures Skips(s, replace) ==> r == s
    ensures !Skips(s, replace) ==> r.isLoading && r.isRefreshing == replace && r.error == ""
    ensures !Skips(s, replace) ==> r.(isLoading := s.isLoading, isRefreshing := s.isRefreshing, error := s.error) == s
    ensures r.items == s.items
  {
    if Skips(s, replace) then s else XLoading(s, replace)
  }

  /** The state once the request has answered with `outcome`. */
  function LoadMore(s: ListState, replace: bool, outcome: Outcome): (r: ListState)
    ensures Skips(s, replace) ==> r == s
    ensures r.uri == s.uri
    ensures !Skips(s, replace) ==> !r.isLoading && !r.isRefreshing && r.hasLoaded
    ensures !Skips(s, replace) && outcome.Fetched? ==>
              && r.items == (if replace then [] else s.items) + Keyed(outcome.page.items)
              && r.list == Some(outcome.page.list)
              && r.loadMoreCursor == outcome.page.cursor
              && (r.hasMore <==> Truthy(outcome.page.cursor))
              && r.error == "" && r.loadMoreError == ""
    ensures !Skips(s, replace) && outcome.Failed? ==>
              && r.items == s.items && r.list == s.list && r.hasMore == s.hasMore
              && r.loadMoreCursor == s.loadMoreCursor
              && r.error == (if replace then outcome.message else "")
              && r.loadMoreError == (if replace then "" else outcome.message)
  {
    if Skips(s, replace) then s
    else
      var loading := Begin(s, replace);
      match outcome
      case Fetched(page) =>
        var loaded := if replace then ReplaceAll(loading, page) else AppendAll(loading, page);
        XIdle(loaded, None, None)
      case Failed(message) =>
        XIdle(loading, if replace then Some(message) else None, if replace then None else Some(message))
  }

  /** The request goes out once loading has begun and reads the same list and cursor as before;
      a fetched page that carries a cursor makes the next appending load run and ask from it. */
  lemma RequestFollowsCursor(s: ListState, replace: bool, page: Page)
    requires !Skips(s, replace)
    ensures PageRequest(Begin(s, replace), replace) == PageRequest(s, replace)
    ensures var r := LoadMore(s, replace, Fetched(page));
            Truthy(page.cursor) ==> !Skips(r, false) && PageRequest(r, false) == Request(s.uri, PAGE_SIZE, page.cursor)
  {
  }

  /** `refresh`: a replacing load. */
  function Refresh(s: ListState, outcome: Outcome): (r: ListState)
    ensures outcome.Fetched? ==> r.items == Keyed(outcome.page.items)
    ensures outcome.Failed? ==> r.items == s.items && r.error == outcome.message
  {
    LoadMore(s, true, outcome)
  }

  /** `retryLoadMore`: clears the load-more error and forces another appending load. */
  function RetryLoadMore(s: ListState, outcome: Outcome): (r: ListState)
    ensures outcome.Fetched? ==> r.items == s.items + Keyed(outcome.page.items) && r.loadMoreError == ""
    ensures outcome.Failed? ==> r.items == s.items && r.loadMoreError == outcome.message && r.error == ""
  {
    LoadMore(s.(loadMoreError := "", hasMore := true), false, outcome)
  }

  /** A load never leaves both error slots filled. */
  lemma NeverBothErrors(s: ListState, replace: bool, outcome: Outcome)
    requires s.error == "" || s.loadMoreError == ""
    ensures var r := LoadMore(s, replace, outcome); r.error == "" || r.loadMoreError == ""
  {
  }

  /** The last page (no cursor) ends pagination: later appending loads change nothing,
      whatever the server would answer, until a refresh or a retry. */
  lemma LastPageStops(s: ListState, page: Page, later: Outcome)
    requires !Truthy(page.cursor)
    ensures var done := LoadMore(s, false, Fetched(page));
            LoadMore(done, false, later) == done
  {
  }

  /** Loads in sequence: a refresh with its page, then one appending load per further page. */
  function LoadPages(s: ListState, first: Page, more: seq<Page>): ListState
    decreases |more|
  {
    if |more| == 0 then Refresh(s, Fetched(first))
    else LoadMore(LoadPages(s, first, more[..|more| - 1]), false, Fetched(more[|more| - 1]))
  }

  /** The items of a run of pages, concatenated as the server sent them. */
  function RawItems(pages: seq<Page>): seq<ListItem>
    decreases |pages|
  {
    if |pages| == 0 then [] else RawItems(pages[..|pages| - 1]) + pages[|pages| - 1].items
  }

  /** Every page but the last carries a cursor. */
  predicate Continued(first: Page, more: seq<Page>) {
    (|more| > 0 ==> Truthy(first.cursor))
    && forall i :: 0 <= i < |more| - 1 ==> Truthy(more[i].cursor)
  }

  /** Paging through a list with cursors accumulates exactly the pages' items, in order,
      and leaves the cursor and list of the last page. */
  lemma {:induction false} PagesAccumulate(s: ListState, first: Page, more: seq<Page>)
    requires Continued(first, more)
    ensures var r := LoadPages(s, first, more);
            var last := if |more| == 0 then first else more[|more| - 1];
            && r.items == Keyed(RawItems([first] + more))
            && r.loadMoreCursor == last.cursor
            && (r.hasMore <==> Truthy(last.cursor))
            && r.list == Some(last.list)
            && r.hasLoaded && r.error == "" && r.loadMoreError == ""
    decreases |more|
  {
    if |more| == 0 {
      assert ([first] + more)[..0] == [];
    } else {
      var init := more[..|more| - 1];
      assert Continued(first, init);
      PagesAccumulate(s, first, init);
      var prev := LoadPages(s, first, init);
      assert prev.hasMore by {
        if |init| == 0 {
        } else {
          assert Truthy(more[|init| - 1].cursor);
        }
      }
      assert ([first] + more)[..|[first] + more| - 1] == [first] + init;
      KeyedAppend(RawItems([first] + init), more[|more| - 1].items);
    }
  }

  // ---------------------------------------------------------------------------
  // What the getters report
  // ---------------------------------------------------------------------------

  /** A fresh model is neither empty nor failed, and nobody owns it yet. */
  lemma InitialGetters(uri: string, meDid: string)
    ensures !HasContent(Initial(uri)) && !IsEmpty(Initial(uri))
    ensures !HasError(Initial(uri)) && !IsOwner(Initial(uri), meDid)
  {
  }

  /** After a successful refresh the model is empty exactly when the page was, has no error,
      and is owned by whoever created the fetched list. */
  lemma RefreshGetters(s: ListState, page: Page, meDid: string)
    ensures var r := Refresh(s, Fetched(page));
            && (IsEmpty(r) <==> |page.items| == 0)
            && (HasContent(r) <==> |page.items| > 0)
            && !HasError(r)
            && (IsOwner(r, meDid) <==> page.list.creatorDid == meDid)
  {
  }

  /** A failed refresh reports its error and keeps what was shown; a failed appending load
      leaves `hasError` false, its message going to `loadMoreError`. */
  lemma FailedLoadGetters(s: ListState, replace: bool, message: string, meDid: string)
    requires !Skips(s, replace)
    ensures var r := LoadMore(s, replace, Failed(message));
            && (HasError(r) <==> replace && message != "")
            && (HasContent(r) <==> HasContent(s))
            && IsEmpty(r) == !HasContent(s)
            && (IsOwner(r, meDid) <==> IsOwner(s, meDid))
  {
  }

  /** A successful appending load clears the error and never empties the model. */
  lemma AppendGetters(s: ListState, page: Page)
    requires !Skips(s, false)
    ensures var r := LoadMore(s, false, Fetched(page));
            && !HasError(r)
            && (HasContent(r) <==> HasContent(s) || |page.items| > 0)
            && (HasContent(s) ==> !IsEmpty(r))
  {
  }
}

=== FILE: optional.dfy ===
/** An optional value: stands for the `undefined`-able fields and results of the app. */
module Optional {

  datatype Option<+T> = None | Some(value: T) {

    /** The value when present, the given default otherwise. */
    function GetOr(default: T): (r: T)
      ensures Some? ==> r == value
      ensures None? ==> r == default
    {
      match this
      case Some(v) => v
      case None => default
    }
  }

  /** JavaScript truthiness of an optional string: `undefined` and `""` are both falsy. */
  predicate Truthy(s: Option<string>) {
    s.Some? && s.value != ""
  }
}

=== FILE: seqs.dfy ===
/** Sequence helpers shared by the models: filtering, first-match search, subsequences. */
module Seqs {
  import opened Optional

  /** `a` is obtained from `b` by deleting elements (order is kept). */
  predicate IsSubseq<T(==)>(a: seq<T>, b: seq<T>)
    decreases |b|
  {
    if |a| == 0 then true
    else if |b| == 0 then false
    else (a[0] == b[0] && IsSubseq(a[1..], b[1..])) || IsSubseq(a, b[1..])
  }

  /** The elements of `s` satisfying `keep`, in their original order. */
  function Filter<T(==)>(s: seq<T>, keep: T -> bool): (r: seq<T>)
    ensures |r| <= |s|
    ensures forall i :: 0 <= i < |r| ==> keep(r[i])
  {
    if |s| == 0 then []
    else if keep(s[0]) then [s[0]] + Filter(s[1..], keep)
    else Filter(s[1..], keep)
  }

  /** What `Filter` keeps comes from `s`, and every element of `s` that `keep` accepts is kept. */
  lemma {:induction false} FilterMembers<T>(s: seq<T>, keep: T -> bool)
    ensures forall i :: 0 <= i < |Filter(s, keep)| ==> Filter(s, keep)[i] in s
    ensures forall i :: 0 <= i < |s| && keep(s[i]) ==> s[i] in Filter(s, keep)
    decreases |s|
  {
    if |s| > 0 {
      FilterMembers(s[1..], keep);
      var r := Filter(s, keep);
      var tail := Filter(s[1..], keep);
      forall i | 0 <= i < |r|
        ensures r[i] in s
      {
        if keep(s[0]) && i == 0 {
        } else {
          var k := if keep(s[0]) then i - 1 else i;
          assert r[i] == tail[k];
          assert tail[k] in s[1..];
        }
      }
      forall i | 0 <= i < |s| && keep(s[i])
        ensures s[i] in r
      {
        if i > 0 {
          assert s[i] == s[1..][i - 1];
        }
      }
    }
  }

  /** The complement of a filter predicate. */
  function Not<T>(p: T -> bool): T -> bool {
    x => !p(x)
  }

  /** Filtering by a predicate and by its complement splits the sequence: the lengths add up. */
  lemma {:induction false} FilterSplit<T>(s: seq<T>, keep: T -> bool)
    ensures |Filter(s, keep)| + |Filter(s, Not(keep))| == |s|
    decreases |s|
  {
    if |s| > 0 {
      FilterSplit(s[1..], keep);
    }
  }

  /** Where an accepted element lands in the filtered sequence: only elements from before it
      precede it there. */
  lemma FilterIndex<T>(s: seq<T>, keep: T -> bool, j: nat) returns (k: nat)
    requires j < |s| && keep(s[j])
    ensures k < |Filter(s, keep)| && Filter(s, keep)[k] == s[j]
    ensures forall i :: 0 <= i < k ==> Filter(s, keep)[i] in s[..j]
    ensures Filter(s, keep)[..k] == Filter(s[..j], keep)
  {
    k := FilterPrefixAt(s, keep, j);
    FilterMembers(s[..j], keep);
    forall i | 0 <= i < k
      ensures Filter(s, keep)[i] in s[..j]
    {
      assert Filter(s, keep)[i] == Filter(s[..j], keep)[i];
    }
  }

  /** The filtered sequence up to an accepted element is the filter of the input up to it. */
  lemma {:induction false} FilterPrefixAt<T>(s: seq<T>, keep: T -> bool, j: nat) returns (k: nat)
    requires j < |s| && keep(s[j])
    ensures k < |Filter(s, keep)| && Filter(s, keep)[k] == s[j]
    ensures Filter(s, keep)[..k] == Filter(s[..j], keep)
    decreases |s|
  {
    var r := Filter(s, keep);
    if j == 0 {
      k := 0;
    } else {
      var tail := Filter(s[1..], keep);
      var k' := FilterPrefixAt(s[1..], keep, j - 1);
      assert s[1..][..j - 1] == s[1..j];
      k := if keep(s[0]) then k' + 1 else k';
      assert r[k] == tail[k'];
      assert s[..j][1..] == s[1..j];
      assert r[..k] == (if keep(s[0]) then [s[0]] else []) + tail[..k'];
    }
  }

  /** Index of the first element satisfying `p` (JavaScript's `findIndex`, `None` for -1). */
  function FirstIndex<T>(s: seq<T>, p: T -> bool): (r: Option<nat>)
    ensures r.Some? ==> r.value < |s| && p(s[r.value])
    ensures r.Some? ==> forall k :: 0 <= k < r.value ==> !p(s[k])
    ensures r.None? <==> forall k :: 0 <= k < |s| ==> !p(s[k])
  {
    if |s| == 0 then None
    else if p(s[0]) then Some(0)
    else match FirstIndex(s[1..], p)
      case Some(k) => Some(k + 1)
      case None => None
  }

  /** The first position where `p` holds is the one `FirstIndex` finds. */
  lemma FirstIndexIs<T>(s: seq<T>, p: T -> bool, k: nat)
    requires k < |s| && p(s[k])
    requires forall j :: 0 <= j < k ==> !p(s[j])
    ensures FirstIndex(s, p) == Some(k)
  {
  }

  lemma {:induction false} FilterIsSubseq<T>(s: seq<T>, keep: T -> bool)
    ensures IsSubseq(Filter(s, keep), s)
    decreases |s|
  {
    if |s| > 0 {
      FilterIsSubseq(s[1..], keep);
      var r := Filter(s, keep);
      if keep(s[0]) {
        assert r[0] == s[0] && r[1..] == Filter(s[1..], keep);
      } else {
        SubseqSkip(r, s);
      }
    }
  }

  /** Dropping the head of the longer sequence keeps a subsequence relation. */
  lemma SubseqSkip<T>(a: seq<T>, b: seq<T>)
    requires |b| > 0 && IsSubseq(a, b[1..])
    ensures IsSubseq(a, b)
  {
  }

  lemma {:induction false} SubseqRefl<T>(a: seq<T>)
    ensures IsSubseq(a, a)
    decreases |a|
  {
    if |a| > 0 {
      SubseqRefl(a[1..]);
    }
  }

  lemma {:induction false} SubseqTrans<T>(a: seq<T>, b: seq<T>, c: seq<T>)
    requires IsSubseq(a, b) && IsSubseq(b, c)
    ensures IsSubseq(a, c)
    decreases |c|
  {
    if |a| > 0 {
      if IsSubseq(b, c[1..]) {
        SubseqTrans(a, b, c[1..]);
      } else if IsSubseq(a, b[1..]) {
        SubseqTrans(a, b[1..], c[1..]);
      } else {
        SubseqTrans(a[1..], b[1..], c[1..]);
      }
    }
  }

  lemma {:induction false} SubseqMembers<T>(a: seq<T>, b: seq<T>)
    requires IsSubseq(a, b)
    ensures forall i :: 0 <= i < |a| ==> a[i] in b
    ensures |a| <= |b|
    decreases |b|
  {
    if |a| > 0 {
      if a[0] == b[0] && IsSubseq(a[1..], b[1..]) {
        SubseqMembers(a[1..], b[1..]);
        assert forall i :: 1 <= i < |a| ==> a[i] == a[1..][i - 1];
      } else {
        SubseqMembers(a, b[1..]);
      }
    }
  }

  /** Filtering distributes over a head element. */
  lemma FilterCons<T>(x: T, s: seq<T>, keep: T -> bool)
    ensures Filter([x] + s, keep) == (if keep(x) then [x] else []) + Filter(s, keep)
  {
    assert ([x] + s)[1..] == s;
  }

  /** A filter that keeps everything `p` keeps is invisible to a later filter by `p`. */
  lemma {:induction false} FilterAbsorbs<T>(s: seq<T>, keep: T -> bool, p: T -> bool)
    requires forall x :: p(x) ==> keep(x)
    ensures Filter(Filter(s, keep), p) == Filter(s, p)
    decreases |s|
  {
    if |s| > 0 {
      FilterAbsorbs(s[1..], keep, p);
      if keep(s[0]) {
        FilterCons(s[0], Filter(s[1..], keep), p);
      }
    }
  }
}

=== FILE: shell_ui.dfy ===
/** The shell's UI state (src/state/models/shell-ui.ts): display switches, the modal stack,
    the lightbox, the composer, and the persisted `darkMode` setting. Each action of
    `ShellUiModel` is a function from the state before to the state after. */
module ShellUi {
  import opened Optional

  /** The modals the shell can stack. Callbacks and view models are left out; a confirm
      message is its text, and an edit-profile modal names the profile by DID. */
  datatype Modal =
    | Confirm(title: string, message: string)
    | EditProfile(profileDid: string)
    | ServerInput(initialService: string)
    | ReportPost(postUri: string, postCid: string)
    | ReportAccount(did: string)
    | CropImage(uri: string)
    | DeleteAccount

  /** `ProfileImageLightbox` and `ImagesLightbox`. */
  datatype Lightbox =
    | ProfileImage(profileDid: string)
    | Images(uris: seq<string>, index: int)

  datatype PostRef = PostRef(uri: string, cid: string, text: string, authorHandle: string)

  datatype ComposerOpts = ComposerOpts(imagesOpen: Option<bool>, replyTo: Option<PostRef>)

  /** The fields of `ShellUiModel`; `navigations` counts the `emitNavigation` calls made. */
  datatype Shell = Shell(
    darkMode: bool,
    minimalShellMode: bool,
    isMainMenuOpen: bool,
    isModalActive: bool,
    activeModals: seq<Modal>,
    isLightboxActive: bool,
    activeLightbox: Option<Lightbox>,
    isComposerActive: bool,
    composerOpts: Option<ComposerOpts>,
    navigations: nat)

  /** Each "is active" flag agrees with the state it summarises. */
  predicate Consistent(s: Shell) {
    && (s.isModalActive <==> |s.activeModals| > 0)
    && (s.isLightboxActive <==> s.activeLightbox.Some?)
    && (s.isComposerActive <==> s.composerOpts.Some?)
  }

  /** A freshly constructed model. */
  function Initial(): (r: Shell)
    ensures Consistent(r)
    ensures !r.darkMode && !r.minimalShellMode && !r.isMainMenuOpen
    ensures r.activeModals == [] && r.activeLightbox.None? && r.composerOpts.None?
  {
    Shell(false, false, false, false, [], false, None, false, None, 0)
  }

  // ---------------------------------------------------------------------------
  // Setters
  // ---------------------------------------------------------------------------

  function SetDarkMode(s: Shell, v: bool): (r: Shell)
    ensures r.darkMode == v
    ensures r.(darkMode := s.darkMode) == s
  {
    s.(darkMode := v)
  }

  function SetMinimalShellMode(s: Shell, v: bool): (r: Shell)
    ensures r.minimalShellMode == v
    ensures r.(minimalShellMode := s.minimalShellMode) == s
  {
    s.(minimalShellMode := v)
  }

  function SetMainMenuOpen(s: Shell, v: bool): (r: Shell)
    ensures r.isMainMenuOpen == v
    ensures r.(isMainMenuOpen := s.isMainMenuOpen) == s
  {
    s.(isMainMenuOpen := v)
  }

  // ---------------------------------------------------------------------------
  // Modal stack
  // ---------------------------------------------------------------------------

  /** Emits a navigation, then pushes `modal` on top of the stack. */
  function OpenModal(s: Shell, modal: Modal): (r: Shell)
    ensures r.isModalActive
    ensures |r.activeModals| == |s.activeModals| + 1
    ensures r.activeModals[|r.activeModals| - 1] == modal
    ensures r.activeModals[..|s.activeModals|] == s.activeModals
    ensures r.navigations == s.navigations + 1
    ensures r.(isModalActive := s.isModalActive, activeModals := s.activeModals, navigations := s.navigations) == s
  {
    s.(navigations := s.navigations + 1, isModalActive := true, activeModals := s.activeModals + [modal])
  }

  /** Pops the top modal (nothing on an empty stack) and recomputes `isModalActive`. */
  function CloseModal(s: Shell): (r: Shell)
    ensures |s.activeModals| > 0 ==> r.activeModals + [s.activeModals[|s.activeModals| - 1]] == s.activeModals
    ensures |s.activeModals| == 0 ==> r.activeModals == []
    ensures r.isModalActive <==> |r.activeModals| > 0
    ensures r.(isModalActive := s.isModalActive, activeModals := s.activeModals) == s
  {
    var modals := if |s.activeModals| > 0 then s.activeModals[..|s.activeModals| - 1] else [];
    assert |s.activeModals| > 0 ==> modals + [s.activeModals[|s.activeModals| - 1]] == s.activeModals;
    var r := s.(activeModals := modals, isModalActive := |modals| > 0);
    assert r.(isModalActive := s.isModalActive, activeModals := s.activeModals) == s;
    r
  }

  /** Closing undoes opening, apart from the navigation that opening emitted. */
  lemma CloseUndoesOpenModal(s: Shell, modal: Modal)
    requires Consistent(s)
    ensures CloseModal(OpenModal(s, modal)) == s.(navigations := s.navigations + 1)
  {
    assert (s.activeModals + [modal])[..|s.activeModals|] == s.activeModals;
  }

  /** Opening `n` modals and closing `n` times leaves the stack as it was. */
  lemma CloseAfterOpens(s: Shell, modals: seq<Modal>)
    requires Consistent(s)
    ensures OpenModals(s, modals).activeModals == s.activeModals + modals
    ensures CloseModals(OpenModals(s, modals), |modals|) == s.(navigations := s.navigations + |modals|)
  {
    OpenModalsPushes(s, modals);
    var stacked := OpenModals(s, modals);
    PopsUndoPushes(stacked, s.activeModals, modals);
  }

  /** Opening modals one after another pushes them in order. */
  lemma {:induction false} OpenModalsPushes(s: Shell, modals: seq<Modal>)
    ensures OpenModals(s, modals) == s.(navigations := s.navigations + |modals|,
                                        isModalActive := s.isModalActive || |modals| > 0,
                                        activeModals := s.activeModals + modals)
    decreases |modals|
  {
    if |modals| > 0 {
      OpenModalsPushes(OpenModal(s, modals[0]), modals[1..]);
      assert s.activeModals + [modals[0]] + modals[1..] == s.activeModals + modals;
    }
  }

  /** Closing as many times as modals were pushed on `base` pops back to `base`. */
  lemma {:induction false} PopsUndoPushes(t: Shell, base: seq<Modal>, pushed: seq<Modal>)
    requires t.activeModals == base + pushed
    requires t.isModalActive <==> |t.activeModals| > 0
    ensures CloseModals(t, |pushed|) == t.(activeModals := base, isModalActive := |base| > 0)
    decreases |pushed|
  {
    if |pushed| > 0 {
      var init := pushed[..|pushed| - 1];
      assert (base + pushed)[..|base + pushed| - 1] == base + init;
      PopsUndoPushes(CloseModal(t), base, init);
    }
  }

  function OpenModals(s: Shell, modals: seq<Modal>): Shell
    decreases |modals|
  {
    if |modals| == 0 then s else OpenModals(OpenModal(s, modals[0]), modals[1..])
  }

  function CloseModals(s: Shell, n: nat): Shell
    decreases n
  {
    if n == 0 then s else CloseModals(CloseModal(s), n - 1)
  }

  // ---------------------------------------------------------------------------
  // Lightbox and composer
  // ---------------------------------------------------------------------------

  function OpenLightbox(s: Shell, lightbox: Lightbox): (r: Shell)
    ensures r.isLightboxActive && r.activeLightbox == Some(lightbox)
    ensures r.navigations == s.navigations + 1
    ensures r.(isLightboxActive := s.isLightboxActive, activeLightbox := s.activeLightbox, navigations := s.navigations) == s
  {
    s.(navigations := s.navigations + 1, isLightboxActive := true, activeLightbox := Some(lightbox))
  }

  function CloseLightbox(s: Shell): (r: Shell)
    ensures !r.isLightboxActive && r.activeLightbox.None?
    ensures r.(isLightboxActive := s.isLightboxActive, activeLightbox := s.activeLightbox) == s
  {
    s.(isLightboxActive := false, activeLightbox := None)
  }

  /** `ImagesLightbox.setIndex`: moves to another image of the same set. */
  function SetIndex(lightbox: Lightbox, index: int): (r: Lightbox)
    requires lightbox.Images?
    ensures r.Images? && r.index == index && r.uris == lightbox.uris
  {
    lightbox.(index := index)
  }

  function OpenComposer(s: Shell, opts: ComposerOpts): (r: Shell)
    ensures r.isComposerActive && r.composerOpts == Some(opts)
    ensures r.navigations == s.navigations + 1
    ensures r.(isComposerActive := s.isComposerActive, composerOpts := s.composerOpts, navigations := s.navigations) == s
  {
    s.(navigations := s.navigations + 1, isComposerActive := true, composerOpts := Some(opts))
  }

  function CloseComposer(s: Shell): (r: Shell)
    ensures !r.isComposerActive && r.composerOpts.None?
    ensures r.(isComposerActive := s.isComposerActive, composerOpts := s.composerOpts) == s
  {
    s.(isComposerActive := false, composerOpts := None)
  }

  /** Closing the lightbox or the composer after opening it restores the state the opening
      replaced, when that state had it closed. */
  lemma CloseUndoesOpen(s: Shell, lightbox: Lightbox, opts: ComposerOpts)
    requires Consistent(s)
    ensures !s.isLightboxActive ==> CloseLightbox(OpenLightbox(s, lightbox)) == s.(navigations := s.navigations + 1)
    ensures !s.isComposerActive ==> CloseComposer(OpenComposer(s, opts)) == s.(navigations := s.navigations + 1)
  {
  }

  // ---------------------------------------------------------------------------
  // Persistence
  // ---------------------------------------------------------------------------

  /** The JSON values `hydrate` may be handed. */
  datatype Json =
    | JNull
    | JBool(b: bool)
    | JNumber(n: int)
    | JString(s: string)
    | JArray(elems: seq<Json>)
    | JObject(props: map<string, Json>)

  /** The persisted part of the state: `darkMode` and nothing else. */
  function Serialize(s: Shell): (r: Json)
    ensures r.JObject? && r.props.Keys == {"darkMode"}
    ensures r.props["darkMode"] == JBool(s.darkMode)
  {
    JObject(map["darkMode" := JBool(s.darkMode)])
  }

  /** Takes `darkMode` from an object whose `darkMode` is a boolean, and ignores anything else. */
  function Hydrate(s: Shell, v: Json): (r: Shell)
    ensures r.(darkMode := s.darkMode) == s
    ensures r.darkMode != s.darkMode ==> v.JObject? && "darkMode" in v.props && v.props["darkMode"] == JBool(r.darkMode)
    ensures (v.JObject? && "darkMode" in v.props && v.props["darkMode"].JBool?) ==> r.darkMode == v.props["darkMode"].b
  {
    if v.JObject? && "darkMode" in v.props && v.props["darkMode"].JBool? then
      s.(darkMode := v.props["darkMode"].b)
    else s
  }

  /** Hydrating from a serialized state restores its `darkMode` and touches nothing else. */
  lemma HydrateSerialize(saved: Shell, s: Shell)
    ensures Hydrate(s, Serialize(saved)) == s.(darkMode := saved.darkMode)
  {
  }

  /** Hydrating twice from the same value is hydrating once. */
  lemma HydrateIdempotent(s: Shell, v: Json)
    ensures Hydrate(Hydrate(s, v), v) == Hydrate(s, v)
  {
  }

  // ---------------------------------------------------------------------------
  // Every reachable state is consistent
  // ---------------------------------------------------------------------------

  datatype Action =
    | SetDarkModeAction(on: bool)
    | SetMinimalShellModeAction(on: bool)
    | SetMainMenuOpenAction(open: bool)
    | OpenModalAction(modal: Modal)
    | CloseModalAction
    | OpenLightboxAction(lightbox: Lightbox)
    | CloseLightboxAction
    | OpenComposerAction(opts: ComposerOpts)
    | CloseComposerAction
    | HydrateAction(v: Json)

  function Step(s: Shell, a: Action): (r: Shell)
    ensures Consistent(s) ==> Consistent(r)
    ensures r.navigations == s.navigations + (if IsOpening(a) then 1 else 0)
  {
    match a
    case SetDarkModeAction(on) => SetDarkMode(s, on)
    case SetMinimalShellModeAction(on) => SetMinimalShellMode(s, on)
    case SetMainMenuOpenAction(open) => SetMainMenuOpen(s, open)
    case OpenModalAction(modal) => OpenModal(s, modal)
    case CloseModalAction => CloseModal(s)
    case OpenLightboxAction(lightbox) => OpenLightbox(s, lightbox)
    case CloseLightboxAction => CloseLightbox(s)
    case OpenComposerAction(opts) => OpenComposer(s, opts)
    case CloseComposerAction => CloseComposer(s)
    case HydrateAction(v) => Hydrate(s, v)
  }

  function Run(s: Shell, actions: seq<Action>): Shell
    decreases |actions|
  {
    if |actions| == 0 then s else Run(Step(s, actions[0]), actions[1..])
  }

  /** From a fresh model, any sequence of actions keeps every flag in step with its state,
      and the navigation count is the number of opening actions. */
  lemma {:induction false} RunStaysConsistent(s: Shell, actions: seq<Action>)
    requires Consistent(s)
    ensures Consistent(Run(s, actions))
    ensures Run(s, actions).navigations == s.navigations + Openings(actions)
    decreases |actions|
  {
    if |actions| > 0 {
      RunStaysConsistent(Step(s, actions[0]), actions[1..]);
    }
  }

  predicate IsOpening(a: Action) {
    a.OpenModalAction? || a.OpenLightboxAction? || a.OpenComposerAction?
  }

  function Openings(actions: seq<Action>): nat
    decreases |actions|
  {
    if |actions| == 0 then 0 else (if IsOpening(actions[0]) then 1 else 0) + Openings(actions[1..])
  }

  lemma ReachableIsConsistent(actions: seq<Action>)
    ensures Consistent(Run(Initial(), actions))
    ensures Run(Initial(), actions).navigations == Openings(actions)
  {
    RunStaysConsistent(Initial(), actions);
  }
}

=== FILE: string_order.dfy ===
/** Lexicographic order on strings by character code: how ISO-8601 timestamps are compared. */
module StringOrder {

  /** `a` sorts at or before `b`. */
  predicate LexLe(a: string, b: string)
    decreases |a|
  {
    if |a| == 0 then true
    else if |b| == 0 then false
    else if a[0] != b[0] then a[0] < b[0]
    else LexLe(a[1..], b[1..])
  }

  lemma {:induction false} LexLeTotal(a: string, b: string)
    ensures LexLe(a, b) || LexLe(b, a)
    decreases |a|
  {
    if |a| > 0 && |b| > 0 && a[0] == b[0] {
      LexLeTotal(a[1..], b[1..]);
    }
  }

  lemma {:induction false} LexLeTrans(a: string, b: string, c: string)
    requires LexLe(a, b) && LexLe(b, c)
    ensures LexLe(a, c)
    decreases |a|
  {
    if |a| > 0 && |b| > 0 && |c| > 0 && a[0] == b[0] && b[0] == c[0] {
      LexLeTrans(a[1..], b[1..], c[1..]);
    }
  }
}

=== FILE: strings.dfy ===
/** The pure string helpers of src/view/lib/strings.ts: `pluralize`, the bucketing of
    `ago`, and the mention scan of `extractEntities`. */
module Strings {
  import opened Optional

  // ---------------------------------------------------------------------------
  // pluralize
  // ---------------------------------------------------------------------------

  /** `base` for exactly one, otherwise the given plural (when non-empty) or `base` + "s". */
  function Pluralize(n: int, base: string, plural: Option<string>): (r: string)
    ensures n == 1 ==> r == base
    ensures n != 1 && Truthy(plural) ==> r == plural.value
    ensures n != 1 && !Truthy(plural) ==> r == base + "s"
  {
    if n == 1 then base
    else if Truthy(plural) then plural.value
    else base + "s"
  }

  // ---------------------------------------------------------------------------
  // Decimal rendering of a number, as JavaScript's template literals print integers
  // ---------------------------------------------------------------------------

  predicate IsDigit(c: char) {
    '0' <= c <= '9'
  }

  function DigitChar(d: nat): (c: char)
    requires d < 10
    ensures IsDigit(c)
  {
    ('0' as int + d) as char
  }

  function DigitValue(c: char): nat
    requires IsDigit(c)
  {
    c as int - '0' as int
  }

  function NatToString(n: nat): string
    decreases n
  {
    if n < 10 then [DigitChar(n)] else NatToString(n / 10) + [DigitChar(n % 10)]
  }

  function IntToString(n: int): string {
    if n < 0 then "-" + NatToString(-n) else NatToString(n)
  }

  predicate AllDigits(s: string) {
    forall i :: 0 <= i < |s| ==> IsDigit(s[i])
  }

  /** The value of a run of decimal digits. */
  function DigitsValue(s: string): nat
    requires AllDigits(s)
    decreases |s|
  {
    if |s| == 0 then 0 else DigitsValue(s[..|s| - 1]) * 10 + DigitValue(s[|s| - 1])
  }

  /** Reads back an optionally negative decimal numeral without leading zeros. */
  function ParseInt(s: string): Option<int> {
    if |s| > 0 && s[0] == '-' then
      var digits := s[1..];
      if |digits| > 0 && AllDigits(digits) && digits[0] != '0'
      then Some(0 - DigitsValue(digits) as int) else None
    else if |s| > 0 && AllDigits(s) && (s[0] != '0' || |s| == 1) then Some(DigitsValue(s))
    else None
  }

  lemma {:induction false} NatToStringReadsBack(n: nat)
    ensures |NatToString(n)| > 0 && AllDigits(NatToString(n))
    ensures NatToString(n)[0] != '0' || n == 0
    ensures NatToString(n) == "0" <==> n == 0
    ensures DigitsValue(NatToString(n)) == n
    decreases n
  {
    var s := NatToString(n);
    if n >= 10 {
      NatToStringReadsBack(n / 10);
      var prefix := NatToString(n / 10);
      assert s[..|s| - 1] == prefix;
      assert s[0] == prefix[0];
    }
  }

  /** The decimal rendering is read back to the same number. */
  lemma IntToStringReadsBack(n: int)
    ensures ParseInt(IntToString(n)) == Some(n)
  {
    if n < 0 {
      NatToStringReadsBack(-n);
      assert IntToString(n)[1..] == NatToString(-n);
    } else {
      NatToStringReadsBack(n);
    }
  }

  // ---------------------------------------------------------------------------
  // ago
  // ---------------------------------------------------------------------------

  const MINUTE: int := 60
  const HOUR: int := MINUTE * 60
  const DAY: int := HOUR * 24
  const MONTH: int := DAY * 30
  const YEAR: int := DAY * 365

  /** Which label `ago` prints, and its number. */
  datatype AgoLabel =
    | JustNow
    | Seconds(n: int)
    | Minutes(n: int)
    | Hours(n: int)
    | Days(n: int)
    | Months(n: int)
    | LocaleDate

  /** Buckets an age in whole seconds (negative for a future time). */
  function AgoBucket(diffSeconds: int): (r: AgoLabel)
    ensures r == JustNow <==> diffSeconds == 0
    ensures r.Seconds? <==> diffSeconds != 0 && diffSeconds < MINUTE
    ensures r.Minutes? <==> MINUTE <= diffSeconds < HOUR
    ensures r.Hours? <==> HOUR <= diffSeconds < DAY
    ensures r.Days? <==> DAY <= diffSeconds < MONTH
    ensures r.Months? <==> MONTH <= diffSeconds < YEAR
    ensures r == LocaleDate <==> YEAR <= diffSeconds
    ensures r.Seconds? ==> r.n == diffSeconds
    ensures r.Minutes? ==> 1 <= r.n <= 59 && r.n * MINUTE <= diffSeconds < (r.n + 1) * MINUTE
    ensures r.Hours? ==> 1 <= r.n <= 23 && r.n * HOUR <= diffSeconds < (r.n + 1) * HOUR
    ensures r.Days? ==> 1 <= r.n <= 29 && r.n * DAY <= diffSeconds < (r.n + 1) * DAY
    ensures r.Months? ==> 1 <= r.n <= 12 && r.n * MONTH <= diffSeconds < (r.n + 1) * MONTH
  {
    if diffSeconds == 0 then JustNow
    else if diffSeconds < MINUTE then Seconds(diffSeconds)
    else if diffSeconds < HOUR then Minutes(diffSeconds / MINUTE)
    else if diffSeconds < DAY then Hours(diffSeconds / HOUR)
    else if diffSeconds < MONTH then Days(diffSeconds / DAY)
    else if diffSeconds < YEAR then Months(diffSeconds / MONTH)
    else LocaleDate
  }

  function UnitSuffix(bucket: AgoLabel): string {
    match bucket
    case Seconds(_) => "s"
    case Minutes(_) => "m"
    case Hours(_) => "h"
    case Days(_) => "d"
    case Months(_) => "mo"
    case _ => ""
  }

  /** The text `ago` shows; `localeDate` is the platform's date string for ages of a year or more. */
  function Ago(diffSeconds: int, localeDate: string): (r: string)
    ensures diffSeconds == 0 ==> r == "just now"
    ensures YEAR <= diffSeconds ==> r == localeDate
    ensures diffSeconds != 0 && diffSeconds < YEAR ==>
              var suffix := UnitSuffix(AgoBucket(diffSeconds));
              |suffix| > 0 && |r| > |suffix| && r[|r| - |suffix|..] == suffix
  {
    match AgoBucket(diffSeconds)
    case JustNow => "just now"
    case LocaleDate => localeDate
    case bucket => IntToString(bucket.n) + UnitSuffix(bucket)
  }

  /** Below a year, the bucket is a number and a unit, and the number reads back as the bucket's count. */
  lemma AgoReadsBack(diffSeconds: int, localeDate: string)
    requires diffSeconds != 0 && diffSeconds < YEAR
    ensures var bucket := AgoBucket(diffSeconds);
            var text := Ago(diffSeconds, localeDate);
            var number := text[..|text| - |UnitSuffix(bucket)|];
            && |UnitSuffix(bucket)| > 0
            && text == number + UnitSuffix(bucket)
            && ParseInt(number) == Some(bucket.n)
  {
    var bucket := AgoBucket(diffSeconds);
    var text := Ago(diffSeconds, localeDate);
    IntToStringReadsBack(bucket.n);
    assert text == IntToString(bucket.n) + UnitSuffix(bucket);
    assert text[..|text| - |UnitSuffix(bucket)|] == IntToString(bucket.n);
  }

  // ---------------------------------------------------------------------------
  // extractEntities: the matches of /(^|\s)(@)([a-zA-Z0-9\.-]+)(\b)/g
  // ---------------------------------------------------------------------------

  /** A mention found in a post's text: `text[start..end]` is "@" followed by `value`. */
  datatype Entity = Entity(kind: string, value: string, start: nat, end: nat)

  /** JavaScript's `\s`. */
  predicate IsSpace(c: char) {
    var code := c as int;
    || (0x09 <= code <= 0x0D) || code == 0x20 || code == 0xA0 || code == 0x1680
    || (0x2000 <= code <= 0x200A) || code == 0x2028 || code == 0x2029 || code == 0x202F
    || code == 0x205F || code == 0x3000 || code == 0xFEFF
  }

  /** JavaScript's `\w`. */
  predicate IsWordChar(c: char) {
    ('a' <= c <= 'z') || ('A' <= c <= 'Z') || ('0' <= c <= '9') || c == '_'
  }

  /** The handle class `[a-zA-Z0-9\.-]`. */
  predicate IsHandleChar(c: char) {
    ('a' <= c <= 'z') || ('A' <= c <= 'Z') || ('0' <= c <= '9') || c == '.' || c == '-'
  }

  /** `\b` at position `q`: a word character on exactly one side. */
  predicate IsBoundary(text: string, q: nat)
    requires q <= |text|
  {
    (q > 0 && IsWordChar(text[q - 1])) != (q < |text| && IsWordChar(text[q]))
  }

  /** Length of the longest run of handle characters starting at `i`. */
  function RunLength(text: string, i: nat): (r: nat)
    requires i <= |text|
    ensures i + r <= |text|
    ensures forall k :: i <= k < i + r ==> IsHandleChar(text[k])
    ensures i + r == |text| || !IsHandleChar(text[i + r])
    decreases |text| - i
  {
    if i == |text| || !IsHandleChar(text[i]) then 0 else 1 + RunLength(text, i + 1)
  }

  /** The greedy `+` backs off until `\b` holds: the longest prefix of the run ending at a boundary. */
  function BackOff(text: string, i: nat, len: nat): (r: nat)
    requires i + len <= |text|
    ensures r <= len
    ensures r > 0 ==> IsBoundary(text, i + r)
    ensures forall q :: i + r < q <= i + len ==> !IsBoundary(text, q)
    decreases len
  {
    if len == 0 then 0
    else if IsBoundary(text, i + len) then len
    else BackOff(text, i, len - 1)
  }

  /** An "@" at `p` at the start of the text or after white space. */
  predicate MentionStart(text: string, p: nat) {
    p < |text| && text[p] == '@' && (p == 0 || IsSpace(text[p - 1]))
  }

  /** How many handle characters the regex matches after an "@" at `p`; 0 when nothing matches there. */
  function MentionLength(text: string, p: nat): (r: nat)
    ensures r > 0 ==> MentionStart(text, p) && p + 1 + r <= |text|
    ensures r > 0 ==> forall k :: p + 1 <= k < p + 1 + r ==> IsHandleChar(text[k])
  {
    if MentionStart(text, p) then BackOff(text, p + 1, RunLength(text, p + 1)) else 0
  }

  /** A match never starts inside the handle of an earlier match. */
  lemma NoMatchInsideHandle(text: string, q: nat, p: nat)
    requires q < p < |text| && MentionLength(text, p) > 0 && MentionLength(text, q) > 0
    ensures q + 1 + MentionLength(text, q) <= p
  {
    assert !IsHandleChar(text[p]);
  }

  /** The match length at every position of the text. */
  function MatchLengths(text: string): (m: seq<nat>)
    ensures |m| == |text|
    ensures forall p :: 0 <= p < |m| ==> m[p] == MentionLength(text, p)
  {
    seq(|text|, p requires 0 <= p < |text| => MentionLength(text, p))
  }

  /** A table of match lengths the scan can walk: each match is an "@" followed by a handle
      that fits in the text. */
  predicate LengthsFit(text: string, m: seq<nat>) {
    && |m| == |text|
    && forall p :: 0 <= p < |m| && m[p] > 0 ==> text[p] == '@' && p + 1 + m[p] <= |text|
  }

  /** No match starts inside the handle of another. */
  predicate Disjoint(m: seq<nat>) {
    forall q, p :: 0 <= q < p < |m| && m[q] > 0 && m[p] > 0 ==> q + 1 + m[q] <= p
  }

  lemma MatchLengthsFit(text: string)
    ensures LengthsFit(text, MatchLengths(text))
    ensures Disjoint(MatchLengths(text))
  {
    var m := MatchLengths(text);
    forall q, p | 0 <= q < p < |m| && m[q] > 0 && m[p] > 0
      ensures q + 1 + m[q] <= p
    {
      NoMatchInsideHandle(text, q, p);
    }
  }

  /** The global regex scan from position `from` (the regex's `lastIndex`), over the match lengths `m`. */
  function Scan(text: string, m: seq<nat>, from: nat): (r: seq<Entity>)
    requires LengthsFit(text, m) && from <= |text|
    ensures forall i :: 0 <= i < |r| ==>
              && r[i].kind == "mention"
              && from <= r[i].start < |text|
              && m[r[i].start] > 0
              && r[i].end == r[i].start + 1 + m[r[i].start]
              && r[i].value == text[r[i].start + 1..r[i].end]
    ensures forall i, j :: 0 <= i < j < |r| ==> r[i].end <= r[j].start
    decreases |text| - from
  {
    if from == |text| then []
    else if m[from] > 0 then
      [Entity("mention", text[from + 1..from + 1 + m[from]], from, from + 1 + m[from])]
      + Scan(text, m, from + 1 + m[from])
    else Scan(text, m, from + 1)
  }

  /** Every position where a match starts yields an entity there: the `i`-th. */
  lemma {:induction false} ScanFindsEveryMatch(text: string, m: seq<nat>, from: nat, p: nat) returns (i: nat)
    requires LengthsFit(text, m) && Disjoint(m)
    requires from <= p < |text| && m[p] > 0
    ensures i < |Scan(text, m, from)| && Scan(text, m, from)[i].start == p
    decreases |text| - from
  {
    var scan := Scan(text, m, from);
    if p == from {
      i := 0;
    } else if m[from] > 0 {
      var k := ScanFindsEveryMatch(text, m, from + 1 + m[from], p);
      assert scan[k + 1] == Scan(text, m, from + 1 + m[from])[k];
      i := k + 1;
    } else {
      i := ScanFindsEveryMatch(text, m, from + 1, p);
    }
  }

  /** `e` is a match of the mention pattern: a mention whose range covers "@" and its non-empty
      handle, as long as the pattern matches there. */
  predicate IsMatch(text: string, e: Entity) {
    && e.kind == "mention"
    && e.start < e.end <= |text|
    && |e.value| > 0
    && text[e.start..e.end] == "@" + e.value
    && e.end - e.start - 1 == MentionLength(text, e.start)
  }

  /** The scan of the whole text from `from`. */
  function ScanMentions(text: string, from: nat): (r: seq<Entity>)
    requires from <= |text|
    ensures forall i :: 0 <= i < |r| ==> from <= r[i].start && IsMatch(text, r[i])
    ensures forall i, j :: 0 <= i < j < |r| ==> r[i].end <= r[j].start
  {
    ScanMatches(text, from);
    var r := Scan(text, MatchLengths(text), from);
    assert forall i :: 0 <= i < |r| ==> IsMatch(text, r[i]);
    r
  }

  lemma ScanMatches(text: string, from: nat)
    requires from <= |text|
    ensures LengthsFit(text, MatchLengths(text))
    ensures forall i :: 0 <= i < |Scan(text, MatchLengths(text), from)| ==>
              IsMatch(text, Scan(text, MatchLengths(text), from)[i])
  {
    MatchLengthsFit(text);
    var m := MatchLengths(text);
    var r := Scan(text, m, from);
    forall i | 0 <= i < |r|
      ensures IsMatch(text, r[i])
    {
      EntityIsMatch(text, r[i], m[r[i].start]);
    }
  }

  lemma EntityIsMatch(text: string, e: Entity, len: nat)
    requires e.kind == "mention" && e.start < |text| && len == MentionLength(text, e.start) > 0
    requires e.end == e.start + 1 + len && e.value == text[e.start + 1..e.end]
    ensures IsMatch(text, e)
  {
    assert text[e.start..e.end] == [text[e.start]] + e.value;
  }

  /** Every position where the regex can match yields an entity there: the `i`-th. */
  lemma ScanFindsEveryMention(text: string, p: nat) returns (i: nat)
    requires p < |text| && MentionLength(text, p) > 0
    ensures i < |ScanMentions(text, 0)| && ScanMentions(text, 0)[i].start == p
  {
    MatchLengthsFit(text);
    i := ScanFindsEveryMatch(text, MatchLengths(text), 0, p);
  }

  /** The mentions of a post's text, or nothing when there are none. */
  function ExtractEntities(text: string): (r: Option<seq<Entity>>)
    ensures r.Some? ==> |r.value| > 0
    ensures r.Some? ==> forall i :: 0 <= i < |r.value| ==>
              && r.value[i].kind == "mention"
              && r.value[i].start < r.value[i].end <= |text|
              && text[r.value[i].start..r.value[i].end] == "@" + r.value[i].value
    ensures r.Some? ==> forall i, j :: 0 <= i < j < |r.value| ==> r.value[i].end <= r.value[j].start
  {
    var ents := ScanMentions(text, 0);
    if |ents| > 0 then Some(ents) else None
  }

  /** `extractEntities` answers nothing exactly when the regex matches nowhere. */
  lemma ExtractEntitiesNoneIff(text: string)
    ensures ExtractEntities(text).None? <==> forall p :: 0 <= p < |text| ==> MentionLength(text, p) == 0
  {
    if ExtractEntities(text).None? {
      forall p | 0 <= p < |text|
        ensures MentionLength(text, p) == 0
      {
        if MentionLength(text, p) > 0 {
          var i := ScanFindsEveryMention(text, p);
        }
      }
    } else {
      var e := ScanMentions(text, 0)[0];
      assert MentionLength(text, e.start) > 0;
    }
  }
}
